=== FILE: README.md ===
# Ghost cursor automation core, in Dafny

This project models the automation core of the ghost-cursor desktop. An
"autopilot" asks a planner for a list of cursor actions and keeps them in a
queue. A 100 ms main loop takes them off the queue one at a time and runs
them: MOVE glides the cursor to a window or a point, CLICK glides and then
flashes a click, DRAW strokes a path on the whiteboard canvas. While there
is nothing to do, the cursor wanders to random points. The module layout
follows that structure:

- `Types` (types.dfy): positions, action tags, actions, windows, the viewport, and JavaScript truthiness of optional strings.
- `Text` (text.dfy): decimal rendering of the instruction count that the plan log prints.
- `LogBuffer` (logbuffer.dfy): the newest-first process log, capped at ten entries.
- `Easing` (easing.dfy): the smooth-movement engine, meaning progress clamped at 1, the quintic ease-out and per-frame interpolation, plus the frame loop as a method.
- `Executor` (executor.dfy): what running one action does. This is written as the ordered list of observable effects it produces: the executing flag, the status line, motions, the clicking flag, log lines, the click dwell, and canvas strokes.
- `Scheduler` (scheduler.dfy): one explicit state and the guarded transitions the timers and effects perform (`Tick`, `Complete`, `Wander`, `Refill`, `SetAutopilot`), and runs of arbitrary step sequences.

Running an action is split in two. `Tick` applies only the entry effects:
it dequeues the head, raises the executing flag and shows the status.
`Complete` applies the rest of the action's effects and lowers the flag. Each motion is applied
as its final frame, so the cursor lands on the motion's target.
`Easing.FrameAt` proves that the last frame of a motion is exactly its
target, and `Easing.FrameApproaches` proves that no frame before it
overshoots.

Random draws, the planner and whether the whiteboard canvas is mounted are
parameters of the transitions. `Math.random()` becomes a draw in [0, 1). The
planner is an arbitrary function from what it is told (open window titles
and viewport size) to a list of actions. In the original, the canvas exists
while the whiteboard window is rendered (components/Window.tsx:13). That is,
while it is open (App.tsx:209-210). The model leaves the flag free on purpose:
no step closes a window, so every reachable state has the canvas mounted,
and a free flag also covers the missing-canvas branch of App.tsx:135.

Three behaviours are modelled the way the code does them, which is narrower
than a plain description of the product would suggest:

- A CLICK without a position does not move, click or log anything; only MOVE uses the (500, 500) fallback (App.tsx:112-113).
- Window lookup by target matches id or title and ignores whether the window is open (App.tsx:116).
- Progress is clamped only from above (App.tsx:60).

## Model

| member | source | states |
|---|---|---|
| Scheduler.Init | App.tsx:9-20 | The start state satisfies the invariant: idle, autopilot off, empty queue, empty canvas, cursor at the viewport centre, three open windows, two log lines. |
| LogBuffer.AddLog | App.tsx:28-30 | The new message comes first, the old entries follow in order, and the buffer never exceeds 10 entries. It grows by one below capacity and stays at 10 at capacity. |
| LogBuffer.AddLogsShowsRecent | App.tsx:28-30 | After any series of messages, the buffer is the 10 newest entries of the whole history, newest first. |
| Easing.Progress | App.tsx:59-60 | Progress is at most 1. It is non-negative for non-negative elapsed time. It equals 1 exactly when elapsed reaches the duration, and below that it is elapsed / duration. |
| Easing.ProgressMonotone | App.tsx:59-60 | Progress never decreases as time advances. |
| Easing.Ease | App.tsx:63 | The ease-out maps progress 0 to 0 and progress 1 to 1. |
| Easing.EaseInUnitInterval | App.tsx:63 | On progress in [0, 1], the eased fraction stays in [0, 1]. |
| Easing.EaseMonotone | App.tsx:63 | The ease-out is monotone on [0, 1]. |
| Easing.EaseLeadsLinear | App.tsx:63 | The curve eases out: on [0, 1] the eased fraction is never behind the progress, and strictly ahead of it inside (0, 1). |
| Easing.EaseExpanded | App.tsx:63 | The eased fraction equals the polynomial `5p - 10p^2 + 10p^3 - 5p^4 + p^5`. |
| Easing.FrameAt | App.tsx:58-73 | A frame asks for another frame exactly while elapsed < duration. From the duration on it publishes the target exactly, and at elapsed 0 it publishes the start. |
| Easing.FrameWithinSpan | App.tsx:65-68 | Every published point lies between start and target on both axes, so there is no overshoot. |
| Easing.FrameApproaches | App.tsx:58-72 | A later frame lies between an earlier frame and the target on each axis: the motion approaches the target monotonically. |
| Easing.Animate | App.tsx:57-76 | Over successive frame times it publishes FrameAt for each, and stops right after the first frame at or past the duration, which is the target. If it has not arrived, every frame was consumed. |
| Executor.StatusText | App.tsx:110 | The status starts with the type name. It has nothing after the name exactly when the target is absent or empty. |
| Executor.StatusRoundTrip | App.tsx:110 | The status line can be parsed back into the action type and the shown (non-empty) target. |
| Executor.StatusInjective | App.tsx:110 | Two actions show the same status exactly when their types and shown targets agree. |
| Executor.FindFirst | App.tsx:116 | Like `Array.find`: the result is the first index whose window satisfies the predicate, and it is absent exactly when none does. |
| Executor.FindFirstAgrees | App.tsx:116 | Searches whose predicates agree on every window find the same window. |
| Executor.Destination | App.tsx:112-121 | With no non-empty target, or a target no window answers to, the destination is the action's position, or (500, 500) without one. |
| Executor.DestinationNearWindow | App.tsx:115-120 | A target that names a window lands at the centre of the FIRST window with that id or title plus `20r - 10` on each axis, for that axis' draw r. That is within 10 of the centre (lower bound inclusive, upper exclusive). |
| Executor.JitterCoversSpan | App.tsx:118-119 | Every offset in [-10, 10) is the jitter of exactly one draw in [0, 1). |
| Executor.DestinationCoversBox | App.tsx:115-120 | Every point of the box within 10 of the named window's centre is the destination for some pair of draws. |
| Executor.DestinationIgnoresOpenState | App.tsx:116 | Opening or closing windows never changes where an action resolves. |
| Executor.DrawFrom | App.tsx:143-157 | Drawing from point i on produces two effects per remaining point, and they are only motions and strokes. |
| Executor.DrawStepViews | App.tsx:144-156 | One path point produces exactly one motion to its absolute point, one stroke at its canvas-local point, and no log line. The motion comes first and the stroke after it. |
| Executor.DrawFromMotions | App.tsx:143-148 | Drawing moves to each remaining path point in path order, 150 ms each, at `win.x + 20 + px*(w-40)`, `win.y + 50 + py*(h-80)`. |
| Executor.DrawFromStrokes | App.tsx:143-157 | Drawing strokes each remaining point in path order at local `(20 + px*(w-40), 10 + py*(h-80))`. Only the first point is a move-to. |
| Executor.DrawFromLogs | App.tsx:143-157 | The stroke loop logs nothing. |
| Executor.Body | App.tsx:112-130 | A MOVE or positioned CLICK glides to its destination first, in 1200 ms, and makes no other motion: the click comes after the glide. |
| Executor.ClickClicking | App.tsx:125-130 | The click raises the clicking flag, dwells 300 ms and lowers the flag, in that order. The click line is logged right after the flag goes up, before the dwell. |
| Executor.ExecuteClicking | App.tsx:112-130 | Exactly a CLICK that moved raises the clicking flag, dwells 300 ms and lowers it; no other action touches the flag or pauses. |
| Executor.ClickViews | App.tsx:125-130 | The click sequence logs `Click: <target or desktop>` once and neither moves nor strokes. |
| Executor.DrawEffectsViews | App.tsx:134-159 | A DRAW reaches the canvas only when the whiteboard window exists and its canvas is mounted; otherwise it moves and strokes nothing. |
| Executor.ExecuteViews | App.tsx:108-110 | Raising the flag, setting the status and lowering the flag contribute no motion, stroke or log. |
| Executor.BodyKeepsFlag | App.tsx:111-160 | Nothing between raising and lowering the executing flag touches it. |
| Executor.ExecuteBracketed | App.tsx:108-162 | Every action raises the executing flag first, then shows its status, and lowers the flag last, with no other flag change in between. |
| Executor.ExecuteMotions | App.tsx:112-148 | There is one 1200 ms motion for MOVE and for positioned CLICK, and one 150 ms motion per path point for a DRAW that reaches the whiteboard. Nothing else moves: IDLE, an unpositioned CLICK, or a DRAW without a path or canvas. |
| Executor.ExecuteStrokes | App.tsx:132-157 | Only a DRAW that reaches the whiteboard strokes, with one stroke per path point in order at the local coordinates. |
| Executor.ExecuteLogs | App.tsx:125-133 | A moving CLICK logs its click line. A DRAW with a path logs its intent even without the whiteboard. Nothing else logs. |
| Executor.DiagonalStroke | App.tsx:145-155 | Path [(0,0), (1,1)] is stroked from local (20, 10) to (w - 20, h - 70). |
| Executor.ExecuteLastMotion | App.tsx:112-148 | An action moves the cursor exactly when it has a last target (MOVE, positioned CLICK, or a non-empty DRAW on the whiteboard), and its last motion goes there. |
| Executor.ExecuteEndsAt | App.tsx:112-148 | Running an action leaves the cursor on its last target, or where it was. |
| Scheduler.ApplyAllFrame | App.tsx:108-162 | Running an action never changes the queue, the autopilot flag or the windows. |
| Scheduler.ApplyAllCanvas | App.tsx:153-156 | The canvas gains exactly the effects' strokes, appended in order. |
| Scheduler.ApplyAllLogs | App.tsx:28-30 | The log receives exactly the effects' messages, in order, through the capped buffer. |
| Scheduler.ApplyAllCursor | App.tsx:70 | The cursor ends on the last motion's target, or stays where it was. |
| Scheduler.ApplyAllKeepsClicking | App.tsx:126-129 | Effects without a clicking change leave the clicking flag as it was. |
| Scheduler.Tick | App.tsx:180-184 | When autopilot is on, the queue is non-empty and nothing executes, the tick removes exactly the head, marks it running, raises the flag and shows its status, and changes nothing else. Otherwise it changes nothing. |
| Scheduler.Complete | App.tsx:108-162 | Finishing the running action lowers the flag and clears it. The queue, autopilot and windows are untouched, the canvas only grows, the clicking flag ends down, the log stays within capacity, and the status line keeps what the action showed on entry. |
| Scheduler.CompleteLowersClicking | App.tsx:125-130 | A moving CLICK ends with the clicking flag down; other actions leave it as it was. |
| Scheduler.TickThenComplete | App.tsx:182-183 | A tick followed by completion equals running the head's whole effect list on the state without the head. |
| Scheduler.CompleteCursor | App.tsx:112-148 | After completion the cursor is at the action's last target, or where it was. |
| Scheduler.CompleteCanvas | App.tsx:143-157 | Completion appends exactly the action's strokes to the canvas. |
| Scheduler.CompleteLogs | App.tsx:125-133 | Completion logs exactly the action's messages, in order. |
| Scheduler.ApplyAllEndsIdle | App.tsx:161 | The flag is down after the exit effect, whatever came before. |
| Scheduler.Wander | App.tsx:82-91 | When autopilot is on, the queue is empty and nothing executes, it shows "Wandering..." and moves to the wander point, touching nothing else; it is exactly the wander effects (status, then the timed glide) applied to the state. Otherwise it changes nothing. |
| Scheduler.WanderInBounds | App.tsx:84-90 | For draws in [0, 1) and a viewport larger than 200 on each axis, the wander point lies in [100, W-100) x [100, H-100), and the motion takes 2000 to under 4000 ms. |
| Scheduler.WanderCovers | App.tsx:84-90 | Every point of [100, W-100) x [100, H-100) and every duration in [2000, 4000) ms is reached by some draws in [0, 1). |
| Scheduler.WanderMotions | App.tsx:89-90 | A wander tick makes exactly one motion, to the wander point, over the drawn duration, and neither strokes nor logs. |
| Scheduler.InsetCovers | App.tsx:86-87 | Every value of `[m, size - m)` is `m + r * (size - 2m)` for one draw r in [0, 1). |
| Scheduler.OpenTitles | App.tsx:169 | The planner's list is no longer than the window list. |
| Scheduler.OpenTitlesOne | App.tsx:169 | A single window contributes its title exactly when it is open. |
| Scheduler.OpenTitlesAppend | App.tsx:169 | The titles of concatenated window lists are the concatenated titles, so the list keeps window order with one entry per open window. |
| Scheduler.OpenTitlesMembers | App.tsx:169 | A title is sent to the planner exactly when some open window carries it. |
| Scheduler.PlanLogInjective | App.tsx:173 | Different instruction counts produce different plan log lines. |
| Text.NatToString | App.tsx:173 | The rendered count is non-empty, all decimal digits, and has no leading zero. |
| Text.NatToStringRoundTrip | App.tsx:173 | Parsing the rendered count gives the count back. |
| Text.NatToStringInjective | App.tsx:173 | Distinct counts render differently. |
| Scheduler.Refill | App.tsx:164-177 | When idle it shows "Thinking...", replaces the queue wholesale with the planner's answer for the open titles and the viewport (even an empty one), and logs the instruction count, changing nothing else. Otherwise it changes nothing. |
| Scheduler.SetAutopilot | App.tsx:240 | The toggle sets the flag and nothing else; it aborts nothing and keeps the queue. |
| Scheduler.NextKeepsInv | App.tsx:181 | Every step keeps the invariant: the executing flag is up exactly while an action runs, clicking is down between steps, and the log is within capacity. |
| Scheduler.RunKeepsInv | App.tsx:181 | The invariant holds after any run. |
| Scheduler.OneActionAtATime | App.tsx:181 | Only an enabled tick starts an action, and only when none is running. Only completion ends one. While one runs, no other step changes the running action, the queue or the cursor. |
| Scheduler.NextConservesQueue | App.tsx:182 | Over one step, what is dequeued followed by the new queue equals the old queue followed by what was installed. |
| Scheduler.RunConservesQueue | App.tsx:172 | Over any run, the actions started followed by the remaining queue equal the initial queue followed by every installed plan: first in, first out, nothing lost or repeated. |
| Scheduler.RunOnlyAddsStrokes | App.tsx:153-156 | Nothing ever clears the whiteboard: the canvas only grows over any run. |

## Left out

- Rendering is not modelled: JSX, components, window chrome, the cursor sprite, and canvas styling (stroke colour, width, caps; App.tsx:138-141). Only the path operations are kept.
- Window focus and close handlers (App.tsx:189-198) are left out; the window list is part of the state and no step changes it.
- Pointer-lock capture (App.tsx:32-50) is left out. It only logs and switches autopilot on, which `SetAutopilot` covers.
- The planner service (services/gemini.ts) is not part of this model. It is an arbitrary function parameter, so network failure and its fallback plan are not modelled.
- Real time, `requestAnimationFrame`, `setInterval` and `setTimeout` are left out. Frame times are a parameter of `Easing.Animate`; in the scheduler, motions and the click dwell are atomic.
- Interleaving inside an action is not modelled, because motions are atomic. In particular, a wander motion that is still running when a tick starts an action would fight over the cursor, since wandering does not hold the executing flag.
- IEEE-754 rounding is not modelled; coordinates are exact reals. In floating point, `start + (target - start) * 1` need not equal `target` exactly.
- Easing.Progress: durations at or below zero are excluded, because every call in the source passes a positive duration (1200, 150, or 2000 to 4000 ms). Negative elapsed times are accepted and computed as the source does.
- Easing.FrameWithinSpan: holds only for non-negative elapsed times. The source has no guard against a negative first elapsed time: `elapsed` is the frame timestamp less a `performance.now()` read at the call (App.tsx:55, 59), and a frame may be stamped earlier. Then progress and the eased fraction are negative, and the first point lies slightly behind the start.
- Easing.FrameApproaches: likewise holds only from elapsed time 0 on, for the same unguarded negative first elapsed time.
- The stale React closures are not modelled. The movement engine reads the cursor from the render that created it, and the executor reads that render's window list.
- The in-place write of the resolved point into `action.position` (App.tsx:113-119) is not modelled. It has no effect once the action is dequeued.
- Scheduler.Refill: the asynchronous planner call is one atomic step. The model does not cover a stale response arriving after the state changed, or the effect re-running only when the autopilot flag or the window list changes (App.tsx:177). In the source, that dependency means a drained queue is not refilled until one of those changes.
- Scheduler.SetAutopilot: starting and stopping the wander timer (App.tsx:80-81, 95-106) is folded into the autopilot flag that `Wander` checks.
- A DRAW's intent log, the whiteboard lookup and the canvas check happen before its first suspension in the source (App.tsx:133-141, before the await at 148), but the model applies them in `Complete`. Only the status line is shown at `Tick`.
- Actions that never suspend (IDLE, an unpositioned CLICK, a DRAW without a path or canvas, or with an empty path) lower the executing flag within the same tick in the source (App.tsx:161). In the model they stay running until `Complete`, which is a step of its own.
- Wander motions also overlap each other: the 100 ms interval does not wait for the 2 to 4 s glide it starts (App.tsx:82-92), so several wander motions may run at once. The model applies each wander motion atomically.
- The advisory `label` field (named `caption` here) is carried but never used, as in the source.

=== FILE: easing.dfy ===
/**
 The smooth-movement engine: each animation frame maps the elapsed time to a
 progress value clamped from above at 1, applies a quintic ease-out and
 publishes the point that fraction of the way from the start to the target.
 The animation asks for another frame exactly while progress is below 1.
 Time is an explicit parameter: `elapsed` is the frame timestamp minus the
 timestamp taken when the motion started.
 */
module Easing {
  import opened Types

  /** The exponent of the ease-out curve. */
  const Degree: nat := 5

  function Pow(b: real, n: nat): real
  {
    if n == 0 then 1.0 else b * Pow(b, n - 1)
  }

  /** `Math.min(elapsed / duration, 1)`: clamped from above only. */
  function Progress(elapsed: real, duration: real): (p: real)
    requires duration > 0.0
    ensures p <= 1.0
    ensures elapsed >= 0.0 ==> 0.0 <= p
    ensures p == 1.0 <==> elapsed >= duration
    ensures p < 1.0 ==> p * duration == elapsed
  {
    var q := elapsed / duration;
    if q < 1.0 then q else 1.0
  }

  /** Quintic ease-out, `1 - (1 - progress)^5`. */
  function Ease(p: real): (e: real)
    ensures p == 0.0 ==> e == 0.0
    ensures p == 1.0 ==> e == 1.0
  {
    PowOfZeroAndOne(Degree);
    1.0 - Pow(1.0 - p, Degree)
  }

  lemma {:induction false} PowOfZeroAndOne(n: nat)
    ensures Pow(1.0, n) == 1.0
    ensures n > 0 ==> Pow(0.0, n) == 0.0
  {
    if n > 0 {
      PowOfZeroAndOne(n - 1);
    }
  }

  /** The point the fraction `e` of the way from `a` to `b`. */
  function Lerp(a: real, b: real, e: real): real
  {
    a + (b - a) * e
  }

  /** What one animation frame publishes, and whether it asks for another frame. */
  datatype Frame = Frame(pos: Position, more: bool)

  /** The frame drawn `elapsed` time units into a motion from `start` to `target`. */
  function FrameAt(start: Position, target: Position, elapsed: real, duration: real): (f: Frame)
    requires duration > 0.0
    ensures f.more <==> elapsed < duration
    ensures elapsed >= duration ==> f.pos == target
    ensures elapsed == 0.0 ==> f.pos == start
  {
    var p := Progress(elapsed, duration);
    var e := Ease(p);
    Frame(Position(Lerp(start.x, target.x, e), Lerp(start.y, target.y, e)), p < 1.0)
  }

  lemma {:induction false} PowNonNegative(b: real, n: nat)
    requires 0.0 <= b
    ensures 0.0 <= Pow(b, n)
  {
    if n > 0 {
      PowNonNegative(b, n - 1);
    }
  }

  lemma {:induction false} PowAtMostOne(b: real, n: nat)
    requires 0.0 <= b <= 1.0
    ensures Pow(b, n) <= 1.0
  {
    if n > 0 {
      PowAtMostOne(b, n - 1);
      PowNonNegative(b, n - 1);
      var rest := Pow(b, n - 1);
      assert Pow(b, n) == b * rest;
      assert b * rest <= 1.0 * rest;
    }
  }

  /** Powers of non-negative reals are monotone in the base. */
  lemma {:induction false} PowMonotone(a: real, b: real, n: nat)
    requires 0.0 <= a <= b
    ensures Pow(a, n) <= Pow(b, n)
  {
    if n > 0 {
      PowMonotone(a, b, n - 1);
      PowNonNegative(a, n - 1);
      PowNonNegative(b, n - 1);
      assert a * Pow(a, n - 1) <= b * Pow(a, n - 1);
      assert b * Pow(a, n - 1) <= b * Pow(b, n - 1);
    }
  }

  /** On progress in [0, 1] the eased fraction stays in [0, 1]. */
  lemma EaseInUnitInterval(p: real)
    requires 0.0 <= p <= 1.0
    ensures 0.0 <= Ease(p) <= 1.0
  {
    PowNonNegative(1.0 - p, Degree);
    PowAtMostOne(1.0 - p, Degree);
  }

  /** The ease-out never moves backwards: later progress is eased at least as far. */
  lemma EaseMonotone(p: real, q: real)
    requires 0.0 <= p <= q <= 1.0
    ensures Ease(p) <= Ease(q)
  {
    PowMonotone(1.0 - q, 1.0 - p, Degree);
  }

  /**
   The curve eases out: it runs ahead of linear progress everywhere inside
   (0, 1), so a motion covers most of its way early and slows on arrival.
   */
  lemma EaseLeadsLinear(p: real)
    requires 0.0 <= p <= 1.0
    ensures p <= Ease(p)
    ensures 0.0 < p < 1.0 ==> p < Ease(p)
  {
    PowBelowBase(1.0 - p, Degree);
    assert Ease(p) == 1.0 - Pow(1.0 - p, Degree);
  }

  /** A power of a base in [0, 1] is at most the base, and strictly below it inside (0, 1). */
  lemma {:induction false} PowBelowBase(b: real, n: nat)
    requires 0.0 <= b <= 1.0 && n >= 1
    ensures Pow(b, n) <= b
    ensures 0.0 < b < 1.0 && n >= 2 ==> Pow(b, n) < b
  {
    if n == 1 {
      assert Pow(b, 1) == b * Pow(b, 0);
    } else {
      PowBelowBase(b, n - 1);
      assert Pow(b, n) == b * Pow(b, n - 1);
      ShrinkBy(b, Pow(b, n - 1));
    }
  }

  /** Multiplying by a factor at most 1 does not grow a non-negative amount. */
  lemma ShrinkBy(b: real, x: real)
    requires 0.0 <= b && x <= 1.0
    ensures b * x <= b
    ensures 0.0 < b && x < 1.0 ==> b * x < b
  {
    assert b - b * x == b * (1.0 - x);
    NonNegProduct(1.0 - x, b);
  }

  /** The ease-out written out as a polynomial in the progress. */
  lemma EaseExpanded(p: real)
    ensures Ease(p) == 5.0 * p - 10.0 * p * p + 10.0 * p * p * p - 5.0 * p * p * p * p + p * p * p * p * p
  {
    var b := 1.0 - p;
    assert Pow(b, 1) == b by {
      assert Pow(b, 1) == b * Pow(b, 0);
    }
    assert Pow(b, 2) == 1.0 - 2.0 * p + p * p by {
      assert Pow(b, 2) == b * Pow(b, 1);
    }
    assert Pow(b, 3) == 1.0 - 3.0 * p + 3.0 * p * p - p * p * p by {
      assert Pow(b, 3) == b * Pow(b, 2);
    }
    assert Pow(b, 4) == 1.0 - 4.0 * p + 6.0 * p * p - 4.0 * p * p * p + p * p * p * p by {
      assert Pow(b, 4) == b * Pow(b, 3);
    }
    assert Pow(b, 5) == 1.0 - 5.0 * p + 10.0 * p * p - 10.0 * p * p * p + 5.0 * p * p * p * p - p * p * p * p * p by {
      assert Pow(b, 5) == b * Pow(b, 4);
    }
  }

  /** Progress never decreases while time advances. */
  lemma ProgressMonotone(e1: real, e2: real, duration: real)
    requires duration > 0.0
    requires e1 <= e2
    ensures Progress(e1, duration) <= Progress(e2, duration)
  {
    var q1 := e1 / duration;
    var q2 := e2 / duration;
    assert q1 * duration == e1 && q2 * duration == e2;
    if q2 < q1 {
      assert q2 * duration < q1 * duration;
    }
  }

  lemma LerpBetween(a: real, b: real, e: real)
    requires 0.0 <= e <= 1.0
    ensures a <= b ==> a <= Lerp(a, b, e) <= b
    ensures b <= a ==> b <= Lerp(a, b, e) <= a
  {
    MonotoneLerp(a, b, 0.0, e);
  }

  /** A product with a non-negative factor keeps the sign of the other factor. */
  lemma NonNegProduct(d: real, t: real)
    requires 0.0 <= t
    ensures d >= 0.0 ==> d * t >= 0.0
    ensures d <= 0.0 ==> d * t <= 0.0
  {
  }

  predicate Between(a: real, v: real, b: real)
  {
    (a <= v <= b) || (b <= v <= a)
  }

  /**
   Every published point lies in the box spanned by the start and the target
   on both axes: the ease-out never overshoots.
   */
  lemma FrameWithinSpan(start: Position, target: Position, elapsed: real, duration: real)
    requires duration > 0.0
    requires elapsed >= 0.0
    ensures Between(start.x, FrameAt(start, target, elapsed, duration).pos.x, target.x)
    ensures Between(start.y, FrameAt(start, target, elapsed, duration).pos.y, target.y)
  {
    var p := Progress(elapsed, duration);
    EaseInUnitInterval(p);
    LerpBetween(start.x, target.x, Ease(p));
    LerpBetween(start.y, target.y, Ease(p));
  }

  /**
   Later frames are never further from the target than earlier ones, axis by
   axis: the motion approaches the target monotonically.
   */
  lemma FrameApproaches(start: Position, target: Position, e1: real, e2: real, duration: real)
    requires duration > 0.0
    requires 0.0 <= e1 <= e2
    ensures Between(FrameAt(start, target, e1, duration).pos.x, FrameAt(start, target, e2, duration).pos.x, target.x)
    ensures Between(FrameAt(start, target, e1, duration).pos.y, FrameAt(start, target, e2, duration).pos.y, target.y)
  {
    var p1 := Progress(e1, duration);
    var p2 := Progress(e2, duration);
    ProgressMonotone(e1, e2, duration);
    EaseMonotone(p1, p2);
    EaseInUnitInterval(p2);
    var k1 := Ease(p1);
    var k2 := Ease(p2);
    MonotoneLerp(start.x, target.x, k1, k2);
    MonotoneLerp(start.y, target.y, k1, k2);
  }

  lemma MonotoneLerp(a: real, b: real, k1: real, k2: real)
    requires k1 <= k2 <= 1.0
    ensures Between(Lerp(a, b, k1), Lerp(a, b, k2), b)
  {
    var d := b - a;
    assert Lerp(a, b, k2) - Lerp(a, b, k1) == d * (k2 - k1) by {
      assert d * k2 - d * k1 == d * (k2 - k1);
    }
    assert b - Lerp(a, b, k2) == d * (1.0 - k2) by {
      assert d - d * k2 == d * (1.0 - k2);
    }
    NonNegProduct(d, k2 - k1);
    NonNegProduct(d, 1.0 - k2);
  }

  /**
   Runs the reschedule-self animation over the elapsed times of successive
   display frames. Each frame publishes `FrameAt`; the animation stops after
   the first frame whose progress reaches 1, which publishes the target
   exactly. `arrived` is false only when the frames ran out first.
   */
  method Animate(start: Position, target: Position, duration: real, times: seq<real>)
      returns (published: seq<Position>, arrived: bool)
    requires duration > 0.0
    ensures |published| <= |times|
    ensures forall i :: 0 <= i < |published| ==> published[i] == FrameAt(start, target, times[i], duration).pos
    ensures forall i :: 0 <= i < |published| - 1 ==> times[i] < duration
    ensures arrived <==> 0 < |published| && times[|published| - 1] >= duration
    ensures arrived ==> published[|published| - 1] == target
    ensures !arrived ==> |published| == |times|
  {
    published := [];
    arrived := false;
    var i := 0;
    while i < |times| && !arrived
      invariant 0 <= i <= |times|
      invariant |published| == i
      invariant forall k :: 0 <= k < i ==> published[k] == FrameAt(start, target, times[k], duration).pos
      invariant forall k :: 0 <= k < i - 1 ==> times[k] < duration
      invariant arrived <==> 0 < i && times[i - 1] >= duration
    {
      var f := FrameAt(start, target, times[i], duration);
      published := published + [f.pos];
      arrived := !f.more;
      i := i + 1;
    }
  }
}

=== FILE: executor.dfy ===
/**
 The action executor. Running one action is described by the list of
 observable effects it produces, in order: the executing flag, the status
 line, cursor motions, the clicking flag, log messages, pauses and canvas
 strokes. Suspension points (motions and the click dwell) appear as effects;
 the scheduler applies the list to its state.
 */
module Executor {
  import opened Types

  /** Duration of a directed MOVE or CLICK motion. */
  const MoveDuration: real := 1200.0
  /** Duration of the motion to each point of a DRAW path. */
  const DrawStepDuration: real := 150.0
  /** How long the clicking flag stays raised. */
  const ClickDwell: real := 300.0
  /** Where a MOVE without a position goes when its target resolves to no window. */
  const Fallback: Position := Position(500.0, 500.0)
  /** Jitter around a window's centre is `r * JitterSpan - JitterHalf` for a draw `r` in [0, 1). */
  const JitterSpan: real := 20.0
  const JitterHalf: real := 10.0

  /** The whiteboard's drawable area: points map to `x + SideMargin + px * (width - HorizontalInset)`. */
  const SideMargin: real := 20.0
  const HorizontalInset: real := 40.0
  /** ... and to `y + TopOffset + py * (height - VerticalInset)`. */
  const TopOffset: real := 50.0
  const VerticalInset: real := 80.0
  /** The canvas sits below the window's title band, so local y is absolute y minus `y + TitleBand`. */
  const TitleBand: real := 40.0

  const WhiteboardId: string := "whiteboard"
  const DrawIntent: string := "Intent: Creative Drawing"
  const ClickPrefix: string := "Click: "
  /** What a click log names when the action has no target. */
  const Desktop: string := "desktop"

  /** A canvas path operation: start a new path at a point, or extend it by a straight line. */
  datatype Pen = MoveTo | LineTo
  datatype StrokeOp = StrokeOp(pen: Pen, x: real, y: real)

  /** One observable effect of running an action. */
  datatype Effect =
    | SetExecuting(on: bool)
    | SetStatus(text: string)
    | Motion(to: Position, duration: real)
    | SetClicking(on: bool)
    | Log(message: string)
    | Pause(duration: real)
    | Stroke(op: StrokeOp)

  // ---------------------------------------------------------------------------
  // Status line

  /** The target as the status line and click log show it: only a non-empty one. */
  function ShownTarget(a: CursorAction): Option<string>
  {
    if Truthy(a.target) then a.target else None
  }

  /** The action's type, followed by `": "` and its target when it has a non-empty one. */
  function StatusText(a: CursorAction): (s: string)
    ensures TypeName(a.kind) <= s
    ensures |s| == |TypeName(a.kind)| <==> !Truthy(a.target)
  {
    TypeName(a.kind) + (if Truthy(a.target) then ": " + a.target.value else "")
  }

  /** The action type whose name starts a status line, if any. */
  function KindOfStatus(s: string): (r: Option<ActionType>)
    ensures r.Some? ==> TypeName(r.value) <= s
  {
    if TypeName(MOVE) <= s then Some(MOVE)
    else if TypeName(CLICK) <= s then Some(CLICK)
    else if TypeName(DRAW) <= s then Some(DRAW)
    else if TypeName(IDLE) <= s then Some(IDLE)
    else None
  }

  /** Reads a status line back into the action type and shown target. */
  function ParseStatus(s: string): Option<(ActionType, Option<string>)>
  {
    match KindOfStatus(s)
    case None => None
    case Some(k) =>
      var rest := s[|TypeName(k)|..];
      if rest == "" then Some((k, None))
      else if |rest| > 2 && rest[..2] == ": " then Some((k, Some(rest[2..])))
      else None
  }

  /** The status line loses nothing of the type and the shown target. */
  lemma StatusRoundTrip(a: CursorAction)
    ensures ParseStatus(StatusText(a)) == Some((a.kind, ShownTarget(a)))
  {
    var s := StatusText(a);
    var name := TypeName(a.kind);
    assert s[..|name|] == name;
    assert KindOfStatus(s) == Some(a.kind) by {
      assert s[0] == name[0];
    }
    var rest := s[|name|..];
    if Truthy(a.target) {
      assert rest == ": " + a.target.value;
      assert rest[2..] == a.target.value;
    } else {
      assert rest == "";
    }
  }

  /** Two actions show the same status exactly when their types and shown targets agree. */
  lemma StatusInjective(a: CursorAction, b: CursorAction)
    ensures StatusText(a) == StatusText(b) <==> a.kind == b.kind && ShownTarget(a) == ShownTarget(b)
  {
    StatusRoundTrip(a);
    StatusRoundTrip(b);
    if a.kind == b.kind && ShownTarget(a) == ShownTarget(b) {
      assert TypeName(a.kind) == TypeName(b.kind);
    }
  }

  // ---------------------------------------------------------------------------
  // Target resolution

  /** The index of the first window satisfying `p`, like `Array.prototype.find`. */
  function FindFirst(ws: seq<WindowState>, p: WindowState -> bool): (r: Option<nat>)
    ensures r.Some? ==> r.value < |ws| && p(ws[r.value])
    ensures r.Some? ==> forall j :: 0 <= j < r.value ==> !p(ws[j])
    ensures r.None? <==> forall j :: 0 <= j < |ws| ==> !p(ws[j])
  {
    if ws == [] then None
    else if p(ws[0]) then Some(0)
    else
      match FindFirst(ws[1..], p)
      case None => None
      case Some(i) => Some(i + 1)
  }

  /** A window answers to a key by id or by title; whether it is open plays no part. */
  predicate Names(w: WindowState, key: string)
  {
    w.id == key || w.title == key
  }

  predicate IsWhiteboard(w: WindowState)
  {
    w.id == WhiteboardId
  }

  function Center(w: WindowState): Position
  {
    Position(w.x + w.width / 2.0, w.y + w.height / 2.0)
  }

  /** The jitter for one random draw. */
  function Jitter(r: real): real
  {
    r * JitterSpan - JitterHalf
  }

  /**
   Where a MOVE (or a CLICK with a position) sends the cursor: near the centre
   of the first window named by a non-empty target, else the action's
   position, else the fallback point. `rx` and `ry` are the two random draws.
   */
  function Destination(a: CursorAction, ws: seq<WindowState>, rx: real, ry: real): (p: Position)
    ensures !Truthy(a.target) ==> p == a.position.GetOr(Fallback)
    ensures (Truthy(a.target) && forall j :: 0 <= j < |ws| ==> !Names(ws[j], a.target.value))
            ==> p == a.position.GetOr(Fallback)
  {
    var base := a.position.GetOr(Fallback);
    if !Truthy(a.target) then base
    else
      match FindFirst(ws, w => Names(w, a.target.value))
      case None => base
      case Some(i) => Position(Center(ws[i]).x + Jitter(rx), Center(ws[i]).y + Jitter(ry))
  }

  /**
   A resolved target lands within `JitterHalf` of the centre of the FIRST
   window carrying that id or title, on each axis, for draws in [0, 1).
   */
  lemma DestinationNearWindow(a: CursorAction, ws: seq<WindowState>, rx: real, ry: real, i: nat)
    requires 0.0 <= rx < 1.0 && 0.0 <= ry < 1.0
    requires Truthy(a.target)
    requires i < |ws| && Names(ws[i], a.target.value)
    requires forall j :: 0 <= j < i ==> !Names(ws[j], a.target.value)
    ensures Center(ws[i]).x - JitterHalf <= Destination(a, ws, rx, ry).x < Center(ws[i]).x + JitterHalf
    ensures Center(ws[i]).y - JitterHalf <= Destination(a, ws, rx, ry).y < Center(ws[i]).y + JitterHalf
    ensures Destination(a, ws, rx, ry)
            == Position(Center(ws[i]).x + rx * JitterSpan - JitterHalf, Center(ws[i]).y + ry * JitterSpan - JitterHalf)
  {
    var f := FindFirst(ws, w => Names(w, a.target.value));
    assert f == Some(i);
  }

  /** Every offset within `JitterHalf` of the centre is the jitter of exactly one draw in [0, 1). */
  lemma JitterCoversSpan(d: real)
    requires -JitterHalf <= d < JitterHalf
    ensures var r := (d + JitterHalf) / JitterSpan; 0.0 <= r < 1.0 && Jitter(r) == d
    ensures forall r :: Jitter(r) == d ==> r == (d + JitterHalf) / JitterSpan
  {
  }

  /**
   A resolved target can land on any point of the box around the first named
   window's centre: some pair of draws sends the cursor there.
   */
  lemma DestinationCoversBox(a: CursorAction, ws: seq<WindowState>, i: nat, dx: real, dy: real)
    requires Truthy(a.target)
    requires i < |ws| && Names(ws[i], a.target.value)
    requires forall j :: 0 <= j < i ==> !Names(ws[j], a.target.value)
    requires -JitterHalf <= dx < JitterHalf && -JitterHalf <= dy < JitterHalf
    ensures var rx, ry := (dx + JitterHalf) / JitterSpan, (dy + JitterHalf) / JitterSpan;
            && 0.0 <= rx < 1.0 && 0.0 <= ry < 1.0
            && Destination(a, ws, rx, ry) == Position(Center(ws[i]).x + dx, Center(ws[i]).y + dy)
  {
    var rx, ry := (dx + JitterHalf) / JitterSpan, (dy + JitterHalf) / JitterSpan;
    JitterCoversSpan(dx);
    JitterCoversSpan(dy);
    DestinationNearWindow(a, ws, rx, ry, i);
  }

  /** Searches with predicates that agree window by window find the same index. */
  lemma FindFirstAgrees(ws: seq<WindowState>, p: WindowState -> bool, vs: seq<WindowState>, q: WindowState -> bool)
    requires |ws| == |vs|
    requires forall j :: 0 <= j < |ws| ==> (p(ws[j]) <==> q(vs[j]))
    ensures FindFirst(ws, p) == FindFirst(vs, q)
  {
    var f := FindFirst(ws, p);
    var g := FindFirst(vs, q);
    if f.Some? {
      assert q(vs[f.value]);
    }
  }

  /** Closing or reopening windows does not change where an action resolves. */
  lemma DestinationIgnoresOpenState(a: CursorAction, ws: seq<WindowState>, vs: seq<WindowState>, rx: real, ry: real)
    requires |ws| == |vs|
    requires forall j :: 0 <= j < |ws| ==> vs[j] == ws[j].(isOpen := vs[j].isOpen)
    ensures Destination(a, ws, rx, ry) == Destination(a, vs, rx, ry)
  {
    if Truthy(a.target) {
      var key := a.target.value;
      var p := w => Names(w, key);
      FindFirstAgrees(ws, p, vs, p);
      var f := FindFirst(ws, p);
      if f.Some? {
        assert Center(ws[f.value]) == Center(vs[f.value]);
      }
    }
  }

  // ---------------------------------------------------------------------------
  // Drawing

  /** The absolute screen point for a normalised path point inside window `win`. */
  function DrawPoint(win: WindowState, p: Position): Position
  {
    Position(win.x + SideMargin + p.x * (win.width - HorizontalInset),
             win.y + TopOffset + p.y * (win.height - VerticalInset))
  }

  /** The pen for the `i`-th point: the first point starts the path. */
  function PenAt(i: nat): Pen
  {
    if i == 0 then MoveTo else LineTo
  }

  /** The effects for the `i`-th path point: a motion to it, then a stroke at its canvas-local coordinates. */
  function DrawStep(win: WindowState, path: seq<Position>, i: nat): seq<Effect>
    requires i < |path|
  {
    var abs := DrawPoint(win, path[i]);
    [Motion(abs, DrawStepDuration), Stroke(StrokeOp(PenAt(i), abs.x - win.x, abs.y - win.y - TitleBand))]
  }

  /** The effects of drawing `path` from its `i`-th point on, point by point. */
  function DrawFrom(win: WindowState, path: seq<Position>, i: nat): (r: seq<Effect>)
    requires i <= |path|
    decreases |path| - i
    ensures |r| == 2 * (|path| - i)
    ensures forall e :: e in r ==> e.Motion? || e.Stroke?
  {
    if i == |path| then []
    else DrawStep(win, path, i) + DrawFrom(win, path, i + 1)
  }

  // ---------------------------------------------------------------------------
  // Running one action

  /** Only MOVE, and CLICK with a position, move the cursor; a CLICK without one does nothing. */
  predicate Moves(a: CursorAction)
  {
    a.kind == MOVE || (a.kind == CLICK && a.position.Some?)
  }

  function ClickLog(a: CursorAction): string
  {
    ClickPrefix + (if Truthy(a.target) then a.target.value else Desktop)
  }

  /** Raising the clicking flag, logging the click, dwelling, lowering the flag. */
  function ClickEffects(a: CursorAction): seq<Effect>
  {
    [SetClicking(true), Log(ClickLog(a)), Pause(ClickDwell), SetClicking(false)]
  }

  /** The strokes of a DRAW: along the whole path on the whiteboard, or nothing when it cannot be reached. */
  function DrawEffects(ws: seq<WindowState>, canvasMounted: bool, path: seq<Position>): seq<Effect>
  {
    if CanDraw(ws, canvasMounted) then DrawFrom(Whiteboard(ws), path, 0) else []
  }

  /** The effects between raising and lowering the executing flag. */
  function Body(a: CursorAction, ws: seq<WindowState>, canvasMounted: bool, rx: real, ry: real): (r: seq<Effect>)
    ensures Moves(a) ==> |r| > 0 && r[0] == Motion(Destination(a, ws, rx, ry), MoveDuration)
    ensures Moves(a) ==> forall k :: 0 <= k < |r| ==> (r[k].Motion? <==> k == 0)
  {
    if Moves(a) then
      [Motion(Destination(a, ws, rx, ry), MoveDuration)] + (if a.kind == CLICK then ClickEffects(a) else [])
    else if a.kind == DRAW && a.path.Some? then
      [Log(DrawIntent)] + DrawEffects(ws, canvasMounted, a.path.value)
    else []
  }

  /** The synchronous start of an action: raise the flag, show the status. */
  function Entry(a: CursorAction): seq<Effect>
  {
    [SetExecuting(true), SetStatus(StatusText(a))]
  }

  const Exit: seq<Effect> := [SetExecuting(false)]

  /**
   Everything running `a` does, against window list `ws`; `canvasMounted`
   says whether the whiteboard canvas exists, `rx` and `ry` are the jitter
   draws.
   */
  function Execute(a: CursorAction, ws: seq<WindowState>, canvasMounted: bool, rx: real, ry: real): seq<Effect>
  {
    Entry(a) + (Body(a, ws, canvasMounted, rx, ry) + Exit)
  }

  // ---------------------------------------------------------------------------
  // Views of an effect list

  /** The motion an effect contributes, if it is one. */
  function MotionOf(e: Effect): seq<Effect>
  {
    if e.Motion? then [e] else []
  }

  function StrokeOf(e: Effect): seq<StrokeOp>
  {
    if e.Stroke? then [e.op] else []
  }

  function LogOf(e: Effect): seq<string>
  {
    if e.Log? then [e.message] else []
  }

  /** The cursor motions among `es`, in order. */
  function MotionsOf(es: seq<Effect>): (r: seq<Effect>)
    ensures forall e :: e in r ==> e.Motion?
  {
    if es == [] then [] else MotionOf(es[0]) + MotionsOf(es[1..])
  }

  /** The canvas operations among `es`, in order. */
  function StrokesOf(es: seq<Effect>): seq<StrokeOp>
  {
    if es == [] then [] else StrokeOf(es[0]) + StrokesOf(es[1..])
  }

  /** The log messages among `es`, in order. */
  function LogsOf(es: seq<Effect>): seq<string>
  {
    if es == [] then [] else LogOf(es[0]) + LogsOf(es[1..])
  }

  /** The clicking effect an effect contributes: a change of the clicking flag or a dwell. */
  function ClickingOne(e: Effect): seq<Effect>
  {
    if e.SetClicking? || e.Pause? then [e] else []
  }

  /** The clicking-flag changes and dwells among `es`, in order. */
  function ClickingOf(es: seq<Effect>): seq<Effect>
  {
    if es == [] then [] else ClickingOne(es[0]) + ClickingOf(es[1..])
  }

  lemma {:induction false} ClickingAppend(xs: seq<Effect>, ys: seq<Effect>)
    ensures ClickingOf(xs + ys) == ClickingOf(xs) + ClickingOf(ys)
  {
    if xs == [] {
      assert xs + ys == ys;
    } else {
      assert (xs + ys)[1..] == xs[1..] + ys;
      ClickingAppend(xs[1..], ys);
    }
  }

  lemma {:induction false} NoClicking(es: seq<Effect>)
    requires forall e :: e in es ==> !e.SetClicking? && !e.Pause?
    ensures ClickingOf(es) == []
  {
    if es != [] {
      assert es[0] in es;
      NoClicking(es[1..]);
    }
  }

  /** A single effect seen through each view. */
  lemma SingleViews(e: Effect)
    ensures MotionsOf([e]) == MotionOf(e)
    ensures StrokesOf([e]) == StrokeOf(e)
    ensures LogsOf([e]) == LogOf(e)
  {
    assert [e][1..] == [];
  }

  lemma {:induction false} MotionsAppend(xs: seq<Effect>, ys: seq<Effect>)
    ensures MotionsOf(xs + ys) == MotionsOf(xs) + MotionsOf(ys)
  {
    if xs == [] {
      assert xs + ys == ys;
    } else {
      assert (xs + ys)[1..] == xs[1..] + ys;
      MotionsAppend(xs[1..], ys);
    }
  }

  lemma {:induction false} StrokesAppend(xs: seq<Effect>, ys: seq<Effect>)
    ensures StrokesOf(xs + ys) == StrokesOf(xs) + StrokesOf(ys)
  {
    if xs == [] {
      assert xs + ys == ys;
    } else {
      assert (xs + ys)[1..] == xs[1..] + ys;
      StrokesAppend(xs[1..], ys);
    }
  }

  lemma {:induction false} LogsAppend(xs: seq<Effect>, ys: seq<Effect>)
    ensures LogsOf(xs + ys) == LogsOf(xs) + LogsOf(ys)
  {
    if xs == [] {
      assert xs + ys == ys;
    } else {
      assert (xs + ys)[1..] == xs[1..] + ys;
      LogsAppend(xs[1..], ys);
    }
  }

  lemma {:induction false} NoMotions(es: seq<Effect>)
    requires forall e :: e in es ==> !e.Motion?
    ensures MotionsOf(es) == []
  {
    if es != [] {
      assert es[0] in es;
      NoMotions(es[1..]);
    }
  }

  lemma {:induction false} NoStrokes(es: seq<Effect>)
    requires forall e :: e in es ==> !e.Stroke?
    ensures StrokesOf(es) == []
  {
    if es != [] {
      assert es[0] in es;
      NoStrokes(es[1..]);
    }
  }

  lemma {:induction false} NoLogs(es: seq<Effect>)
    requires forall e :: e in es ==> !e.Log?
    ensures LogsOf(es) == []
  {
    if es != [] {
      assert es[0] in es;
      NoLogs(es[1..]);
    }
  }

  /** The stroke a DRAW makes for the `k`-th path point, in canvas-local coordinates. */
  function ExpectedStroke(win: WindowState, path: seq<Position>, k: nat): StrokeOp
    requires k < |path|
  {
    StrokeOp(PenAt(k),
             SideMargin + path[k].x * (win.width - HorizontalInset),
             TopOffset - TitleBand + path[k].y * (win.height - VerticalInset))
  }

  /** One short motion to each point of `path`, in path order. */
  function PathMotions(win: WindowState, path: seq<Position>): (r: seq<Effect>)
    ensures |r| == |path|
  {
    seq(|path|, k requires 0 <= k < |path| => Motion(DrawPoint(win, path[k]), DrawStepDuration))
  }

  /** One stroke for each point of `path`, in path order. */
  function PathStrokes(win: WindowState, path: seq<Position>): (r: seq<StrokeOp>)
    ensures |r| == |path|
  {
    seq(|path|, k requires 0 <= k < |path| => ExpectedStroke(win, path, k))
  }

  /** A single path point moves once, strokes once at its local coordinates and logs nothing. */
  lemma DrawStepViews(win: WindowState, path: seq<Position>, i: nat)
    requires i < |path|
    ensures MotionsOf(DrawStep(win, path, i)) == [PathMotions(win, path)[i]]
    ensures StrokesOf(DrawStep(win, path, i)) == [PathStrokes(win, path)[i]]
    ensures LogsOf(DrawStep(win, path, i)) == []
    ensures DrawStep(win, path, i) == [PathMotions(win, path)[i], Stroke(PathStrokes(win, path)[i])]
  {
    var d := DrawStep(win, path, i);
    assert d[0] == PathMotions(win, path)[i];
    assert d[1] == Stroke(PathStrokes(win, path)[i]);
    assert d == [d[0]] + [d[1]];
    SingleViews(d[0]);
    SingleViews(d[1]);
    MotionsAppend([d[0]], [d[1]]);
    StrokesAppend([d[0]], [d[1]]);
    LogsAppend([d[0]], [d[1]]);
  }

  /** A non-empty suffix is its first element followed by the rest. */
  lemma SliceCons<T>(s: seq<T>, i: nat)
    requires i < |s|
    ensures s[i..] == [s[i]] + s[i + 1..]
  {
  }

  /** Drawing from point `i` on moves to each remaining point, in path order. */
  lemma {:induction false} DrawFromMotions(win: WindowState, path: seq<Position>, i: nat)
    requires i <= |path|
    decreases |path| - i
    ensures MotionsOf(DrawFrom(win, path, i)) == PathMotions(win, path)[i..]
  {
    if i < |path| {
      DrawFromMotions(win, path, i + 1);
      MotionsAppend(DrawStep(win, path, i), DrawFrom(win, path, i + 1));
      DrawStepViews(win, path, i);
      SliceCons(PathMotions(win, path), i);
    }
  }

  /**
   Drawing from point `i` on strokes each remaining point, in path order, at
   canvas-local `(20 + px * (width - 40), 10 + py * (height - 80))`; only
   the path's first point starts a new path.
   */
  lemma {:induction false} DrawFromStrokes(win: WindowState, path: seq<Position>, i: nat)
    requires i <= |path|
    decreases |path| - i
    ensures StrokesOf(DrawFrom(win, path, i)) == PathStrokes(win, path)[i..]
  {
    if i < |path| {
      DrawFromStrokes(win, path, i + 1);
      StrokesAppend(DrawStep(win, path, i), DrawFrom(win, path, i + 1));
      DrawStepViews(win, path, i);
      SliceCons(PathStrokes(win, path), i);
    }
  }

  /** Drawing logs nothing itself. */
  lemma {:induction false} DrawFromLogs(win: WindowState, path: seq<Position>, i: nat)
    requires i <= |path|
    decreases |path| - i
    ensures LogsOf(DrawFrom(win, path, i)) == []
  {
    if i < |path| {
      DrawFromLogs(win, path, i + 1);
      LogsAppend(DrawStep(win, path, i), DrawFrom(win, path, i + 1));
      DrawStepViews(win, path, i);
    }
  }

  // ---------------------------------------------------------------------------
  // What running an action does

  /** The whiteboard DRAW strokes on: the first window with that id, when its canvas is mounted. */
  predicate CanDraw(ws: seq<WindowState>, canvasMounted: bool)
  {
    canvasMounted && FindFirst(ws, IsWhiteboard).Some?
  }

  function Whiteboard(ws: seq<WindowState>): WindowState
    requires FindFirst(ws, IsWhiteboard).Some?
  {
    ws[FindFirst(ws, IsWhiteboard).value]
  }

  lemma BodyKeepsFlag(a: CursorAction, ws: seq<WindowState>, canvasMounted: bool, rx: real, ry: real)
    ensures forall e :: e in Body(a, ws, canvasMounted, rx, ry) ==> !e.SetExecuting?
  {
  }

  /** The status line is set once, on entry: nothing after it changes the status. */
  lemma BodyKeepsStatus(a: CursorAction, ws: seq<WindowState>, canvasMounted: bool, rx: real, ry: real)
    ensures forall e :: e in Body(a, ws, canvasMounted, rx, ry) + Exit ==> !e.SetStatus?
  {
  }

  /**
   Every action, of every type and whatever its fields, raises the executing
   flag first, shows its status next and lowers the flag last; nothing in
   between touches the flag.
   */
  lemma ExecuteBracketed(a: CursorAction, ws: seq<WindowState>, canvasMounted: bool, rx: real, ry: real)
    ensures var r := Execute(a, ws, canvasMounted, rx, ry);
            && |r| >= 3
            && r[0] == SetExecuting(true)
            && r[1] == SetStatus(StatusText(a))
            && r[|r| - 1] == SetExecuting(false)
            && forall k :: 1 < k < |r| - 1 ==> !r[k].SetExecuting?
  {
    var body := Body(a, ws, canvasMounted, rx, ry);
    var r := Execute(a, ws, canvasMounted, rx, ry);
    BodyKeepsFlag(a, ws, canvasMounted, rx, ry);
    assert forall k :: 1 < k < |r| - 1 ==> r[k] == body[k - 2];
  }

  /** The entry and exit effects move nothing, stroke nothing and log nothing. */
  lemma ExecuteViews(a: CursorAction, ws: seq<WindowState>, canvasMounted: bool, rx: real, ry: real)
    ensures MotionsOf(Execute(a, ws, canvasMounted, rx, ry)) == MotionsOf(Body(a, ws, canvasMounted, rx, ry))
    ensures StrokesOf(Execute(a, ws, canvasMounted, rx, ry)) == StrokesOf(Body(a, ws, canvasMounted, rx, ry))
    ensures LogsOf(Execute(a, ws, canvasMounted, rx, ry)) == LogsOf(Body(a, ws, canvasMounted, rx, ry))
  {
    var body := Body(a, ws, canvasMounted, rx, ry);
    var entry := Entry(a);
    NoMotions(entry);
    NoMotions(Exit);
    NoStrokes(entry);
    NoStrokes(Exit);
    NoLogs(entry);
    NoLogs(Exit);
    MotionsAppend(entry, body + Exit);
    MotionsAppend(body, Exit);
    StrokesAppend(entry, body + Exit);
    StrokesAppend(body, Exit);
    LogsAppend(entry, body + Exit);
    LogsAppend(body, Exit);
  }

  /** The click's own effects: no motion, no stroke, one log line. */
  lemma ClickViews(a: CursorAction)
    ensures MotionsOf(ClickEffects(a)) == []
    ensures StrokesOf(ClickEffects(a)) == []
    ensures LogsOf(ClickEffects(a)) == [ClickLog(a)]
  {
    var c := ClickEffects(a);
    NoMotions(c);
    NoStrokes(c);
    assert c == [c[0]] + ([c[1]] + c[2..]);
    LogsAppend([c[0]], [c[1]] + c[2..]);
    LogsAppend([c[1]], c[2..]);
    NoLogs(c[2..]);
    NoLogs([c[0]]);
  }

  /** The click raises the flag, dwells 300 ms and lowers the flag, in that order. */
  lemma ClickClicking(a: CursorAction)
    ensures ClickingOf(ClickEffects(a)) == [SetClicking(true), Pause(ClickDwell), SetClicking(false)]
    ensures ClickEffects(a)[1] == Log(ClickLog(a)) && ClickingOf(ClickEffects(a)[..1]) == [SetClicking(true)]
  {
    var c := ClickEffects(a);
    assert c == [c[0]] + ([c[1]] + ([c[2]] + [c[3]]));
    ClickingAppend([c[0]], [c[1]] + ([c[2]] + [c[3]]));
    ClickingAppend([c[1]], [c[2]] + [c[3]]);
    ClickingAppend([c[2]], [c[3]]);
    assert [c[0]][1..] == [] && [c[1]][1..] == [] && [c[2]][1..] == [] && [c[3]][1..] == [];
  }

  /**
   The clicking flag and the dwell of an action: a CLICK that moved raises
   the flag, dwells 300 ms and lowers it; no other action touches the flag or
   dwells.
   */
  lemma ExecuteClicking(a: CursorAction, ws: seq<WindowState>, canvasMounted: bool, rx: real, ry: real)
    ensures ClickingOf(Execute(a, ws, canvasMounted, rx, ry))
            == if Moves(a) && a.kind == CLICK then [SetClicking(true), Pause(ClickDwell), SetClicking(false)]
               else []
  {
    var body := Body(a, ws, canvasMounted, rx, ry);
    var entry := Entry(a);
    assert ClickingOf(Execute(a, ws, canvasMounted, rx, ry)) == ClickingOf(body) by {
      NoClicking(entry);
      NoClicking(Exit);
      ClickingAppend(entry, body + Exit);
      ClickingAppend(body, Exit);
    }
    if Moves(a) {
      var m := Motion(Destination(a, ws, rx, ry), MoveDuration);
      var click := if a.kind == CLICK then ClickEffects(a) else [];
      assert body == [m] + click;
      ClickingAppend([m], click);
      NoClicking([m]);
      if a.kind == CLICK {
        ClickClicking(a);
      }
    } else if a.kind == DRAW && a.path.Some? {
      var draw := DrawEffects(ws, canvasMounted, a.path.value);
      assert body == [Log(DrawIntent)] + draw;
      ClickingAppend([Log(DrawIntent)], draw);
      NoClicking([Log(DrawIntent)]);
      NoClicking(draw);
    }
  }

  /** A DRAW's strokes, seen through each view. */
  lemma DrawEffectsViews(ws: seq<WindowState>, canvasMounted: bool, path: seq<Position>)
    ensures MotionsOf(DrawEffects(ws, canvasMounted, path))
            == if CanDraw(ws, canvasMounted) then PathMotions(Whiteboard(ws), path) else []
    ensures StrokesOf(DrawEffects(ws, canvasMounted, path))
            == if CanDraw(ws, canvasMounted) then PathStrokes(Whiteboard(ws), path) else []
    ensures LogsOf(DrawEffects(ws, canvasMounted, path)) == []
  {
    if CanDraw(ws, canvasMounted) {
      var win := Whiteboard(ws);
      DrawFromMotions(win, path, 0);
      DrawFromStrokes(win, path, 0);
      DrawFromLogs(win, path, 0);
      assert PathMotions(win, path)[0..] == PathMotions(win, path);
      assert PathStrokes(win, path)[0..] == PathStrokes(win, path);
    }
  }

  /**
   The cursor motions of an action: one directed motion for MOVE and for
   CLICK with a position; one short motion per path point, in path order,
   for a DRAW that can reach the whiteboard; none otherwise (IDLE, CLICK
   without a position, DRAW without a path or without the whiteboard).
   */
  lemma ExecuteMotions(a: CursorAction, ws: seq<WindowState>, canvasMounted: bool, rx: real, ry: real)
    ensures MotionsOf(Execute(a, ws, canvasMounted, rx, ry))
            == if Moves(a) then [Motion(Destination(a, ws, rx, ry), MoveDuration)]
               else if a.kind == DRAW && a.path.Some? && CanDraw(ws, canvasMounted) then PathMotions(Whiteboard(ws), a.path.value)
               else []
  {
    ExecuteViews(a, ws, canvasMounted, rx, ry);
    var body := Body(a, ws, canvasMounted, rx, ry);
    if Moves(a) {
      var m := Motion(Destination(a, ws, rx, ry), MoveDuration);
      var click := if a.kind == CLICK then ClickEffects(a) else [];
      assert body == [m] + click;
      MotionsAppend([m], click);
      ClickViews(a);
    } else if a.kind == DRAW && a.path.Some? {
      var draw := DrawEffects(ws, canvasMounted, a.path.value);
      assert body == [Log(DrawIntent)] + draw;
      MotionsAppend([Log(DrawIntent)], draw);
      DrawEffectsViews(ws, canvasMounted, a.path.value);
    }
  }

  /**
   The canvas strokes of an action: only a DRAW that can reach the
   whiteboard strokes, one operation per path point in path order, the first
   a move-to and the rest line-tos, at canvas-local
   `(20 + px * (width - 40), 10 + py * (height - 80))`.
   */
  lemma ExecuteStrokes(a: CursorAction, ws: seq<WindowState>, canvasMounted: bool, rx: real, ry: real)
    ensures StrokesOf(Execute(a, ws, canvasMounted, rx, ry))
            == if a.kind == DRAW && a.path.Some? && CanDraw(ws, canvasMounted) then PathStrokes(Whiteboard(ws), a.path.value)
               else []
  {
    ExecuteViews(a, ws, canvasMounted, rx, ry);
    var body := Body(a, ws, canvasMounted, rx, ry);
    if Moves(a) {
      var m := Motion(Destination(a, ws, rx, ry), MoveDuration);
      var click := if a.kind == CLICK then ClickEffects(a) else [];
      assert body == [m] + click;
      StrokesAppend([m], click);
      ClickViews(a);
    } else if a.kind == DRAW && a.path.Some? {
      var draw := DrawEffects(ws, canvasMounted, a.path.value);
      assert body == [Log(DrawIntent)] + draw;
      StrokesAppend([Log(DrawIntent)], draw);
      DrawEffectsViews(ws, canvasMounted, a.path.value);
    }
  }

  /**
   The log messages of an action: a CLICK that moved logs
   `Click: <target or 'desktop'>`; a DRAW with a path logs its intent, whether
   or not the whiteboard is there; nothing else logs.
   */
  lemma ExecuteLogs(a: CursorAction, ws: seq<WindowState>, canvasMounted: bool, rx: real, ry: real)
    ensures LogsOf(Execute(a, ws, canvasMounted, rx, ry))
            == if Moves(a) && a.kind == CLICK then [ClickPrefix + (if Truthy(a.target) then a.target.value else Desktop)]
               else if a.kind == DRAW && a.path.Some? then [DrawIntent]
               else []
  {
    ExecuteViews(a, ws, canvasMounted, rx, ry);
    var body := Body(a, ws, canvasMounted, rx, ry);
    if Moves(a) {
      var m := Motion(Destination(a, ws, rx, ry), MoveDuration);
      var click := if a.kind == CLICK then ClickEffects(a) else [];
      assert body == [m] + click;
      LogsAppend([m], click);
      ClickViews(a);
    } else if a.kind == DRAW && a.path.Some? {
      var draw := DrawEffects(ws, canvasMounted, a.path.value);
      assert body == [Log(DrawIntent)] + draw;
      LogsAppend([Log(DrawIntent)], draw);
      DrawEffectsViews(ws, canvasMounted, a.path.value);
    }
  }

  /**
   The example of a diagonal stroke: path `[(0,0), (1,1)]` on a whiteboard of
   size `w` by `h` is stroked (see `ExecuteStrokes`) from local `(20, 10)` to
   `(w - 20, h - 70)`.
   */
  lemma DiagonalStroke(win: WindowState)
    ensures PathStrokes(win, [Position(0.0, 0.0), Position(1.0, 1.0)])
            == [StrokeOp(MoveTo, 20.0, 10.0), StrokeOp(LineTo, win.width - 20.0, win.height - 70.0)]
  {
    var path := [Position(0.0, 0.0), Position(1.0, 1.0)];
    var strokes := PathStrokes(win, path);
    assert strokes[0] == ExpectedStroke(win, path, 0);
    assert strokes[1] == ExpectedStroke(win, path, 1);
  }

  /** The point where an action leaves the cursor, when it moves it at all. */
  function LastTarget(a: CursorAction, ws: seq<WindowState>, canvasMounted: bool, rx: real, ry: real): Option<Position>
  {
    if Moves(a) then Some(Destination(a, ws, rx, ry))
    else if a.kind == DRAW && a.path.Some? && CanDraw(ws, canvasMounted) && |a.path.value| > 0 then
      Some(DrawPoint(Whiteboard(ws), a.path.value[|a.path.value| - 1]))
    else None
  }

  /**
   An action moves the cursor at all exactly when it has a last target, and
   its last motion goes there: the destination of a MOVE or positioned CLICK,
   the last path point of a DRAW.
   */
  lemma ExecuteLastMotion(a: CursorAction, ws: seq<WindowState>, canvasMounted: bool, rx: real, ry: real)
    ensures LastTarget(a, ws, canvasMounted, rx, ry).None? <==> MotionsOf(Execute(a, ws, canvasMounted, rx, ry)) == []
    ensures LastTarget(a, ws, canvasMounted, rx, ry).Some? ==>
              var ms := MotionsOf(Execute(a, ws, canvasMounted, rx, ry));
              ms[|ms| - 1].to == LastTarget(a, ws, canvasMounted, rx, ry).value
  {
    ExecuteMotions(a, ws, canvasMounted, rx, ry);
    LastOfMotions(a, ws, canvasMounted, rx, ry, MotionsOf(Execute(a, ws, canvasMounted, rx, ry)));
  }

  /** The last-target facts, for a motion list of the shape `ExecuteMotions` states. */
  lemma LastOfMotions(a: CursorAction, ws: seq<WindowState>, canvasMounted: bool, rx: real, ry: real, ms: seq<Effect>)
    requires ms == if Moves(a) then [Motion(Destination(a, ws, rx, ry), MoveDuration)]
                   else if a.kind == DRAW && a.path.Some? && CanDraw(ws, canvasMounted) then PathMotions(Whiteboard(ws), a.path.value)
                   else []
    ensures LastTarget(a, ws, canvasMounted, rx, ry).None? <==> ms == []
    ensures LastTarget(a, ws, canvasMounted, rx, ry).Some? ==> ms[|ms| - 1].to == LastTarget(a, ws, canvasMounted, rx, ry).value
  {
    if !Moves(a) && a.kind == DRAW && a.path.Some? && CanDraw(ws, canvasMounted) {
      var path := a.path.value;
      if |path| > 0 {
        assert ms[|ms| - 1] == Motion(DrawPoint(Whiteboard(ws), path[|path| - 1]), DrawStepDuration);
      }
    }
  }

  /** Where the effects `es` leave a cursor that starts at `c`: on the last motion's target. */
  function CursorAfter(c: Position, es: seq<Effect>): Position
  {
    var ms := MotionsOf(es);
    if ms == [] then c else ms[|ms| - 1].to
  }

  /** Running an action leaves the cursor on its last target, or where it was when it has none. */
  lemma ExecuteEndsAt(a: CursorAction, ws: seq<WindowState>, canvasMounted: bool, rx: real, ry: real, c: Position)
    ensures CursorAfter(c, Execute(a, ws, canvasMounted, rx, ry)) == LastTarget(a, ws, canvasMounted, rx, ry).GetOr(c)
  {
    ExecuteLastMotion(a, ws, canvasMounted, rx, ry);
  }

  /** The entry effects do not move the cursor, so the rest of the action alone decides where it ends. */
  lemma RestEndsAt(a: CursorAction, ws: seq<WindowState>, canvasMounted: bool, rx: real, ry: real, c: Position)
    ensures CursorAfter(c, Body(a, ws, canvasMounted, rx, ry) + Exit) == LastTarget(a, ws, canvasMounted, rx, ry).GetOr(c)
  {
    var body := Body(a, ws, canvasMounted, rx, ry);
    assert MotionsOf(body + Exit) == MotionsOf(body) by {
      MotionsAppend(body, Exit);
      NoMotions(Exit);
    }
    ExecuteViews(a, ws, canvasMounted, rx, ry);
    ExecuteEndsAt(a, ws, canvasMounted, rx, ry, c);
  }
}

=== FILE: logbuffer.dfy ===
/**
 The process-stream log: newest message first, holding at most `Capacity`
 entries (`[msg, ...prev].slice(0, 10)`).
 */
module LogBuffer {

  const Capacity: nat := 10

  /** The first `n` entries of `s`, or all of them when there are fewer. */
  function Take<T>(s: seq<T>, n: nat): (r: seq<T>)
    ensures |r| == if |s| < n then |s| else n
    ensures r == s[..|r|]
  {
    if |s| <= n then s else s[..n]
  }

  /** Prepends `msg` and drops whatever falls beyond the capacity. */
  function AddLog(logs: seq<string>, msg: string): (r: seq<string>)
    ensures 0 < |r| <= Capacity
    ensures r[0] == msg
    ensures |logs| < Capacity ==> |r| == |logs| + 1
    ensures |logs| >= Capacity ==> |r| == Capacity
    ensures r[1..] == logs[..|r| - 1]
  {
    Take([msg] + logs, Capacity)
  }

  /** Logs `msgs` one after the other, oldest first. */
  function AddLogs(logs: seq<string>, msgs: seq<string>): seq<string>
  {
    if msgs == [] then logs else AddLog(AddLogs(logs, msgs[..|msgs| - 1]), msgs[|msgs| - 1])
  }

  function Reverse<T>(s: seq<T>): (r: seq<T>)
    ensures |r| == |s|
  {
    if s == [] then [] else [s[|s| - 1]] + Reverse(s[..|s| - 1])
  }

  lemma TakeCons<T>(m: T, s: seq<T>, n: nat)
    requires 0 < n
    ensures Take([m] + Take(s, n), n) == Take([m] + s, n)
  {
  }

  /**
   After any series of messages the buffer shows the newest `Capacity`
   entries of the whole history, newest first: the new messages in reverse
   order of arrival, then the old entries.
   */
  lemma {:induction false} AddLogsShowsRecent(logs: seq<string>, msgs: seq<string>)
    ensures AddLogs(logs, msgs) == Take(Reverse(msgs) + logs, if msgs == [] then |logs| else Capacity)
  {
    if msgs != [] {
      var front := msgs[..|msgs| - 1];
      var m := msgs[|msgs| - 1];
      AddLogsShowsRecent(logs, front);
      if front == [] {
        assert Reverse(msgs) == [m];
      } else {
        calc {
          AddLogs(logs, msgs);
          AddLog(Take(Reverse(front) + logs, Capacity), m);
          { TakeCons(m, Reverse(front) + logs, Capacity); }
          Take([m] + (Reverse(front) + logs), Capacity);
          { assert [m] + (Reverse(front) + logs) == Reverse(msgs) + logs; }
          Take(Reverse(msgs) + logs, Capacity);
        }
      }
    }
  }
}

=== FILE: scheduler.dfy ===
/**
 The scheduler: one explicit state and the guarded transitions that the
 original runs from timers and effects.

 - `Tick`     the 100 ms main loop: dequeue the head and start executing it;
 - `Complete` the rest of that action, up to lowering the executing flag;
 - `Wander`   the idle motion the wander timer issues;
 - `Refill`   installing a new plan from the planner;
 - `SetAutopilot` the dock's toggle.

 There is no preemption: each transition is one atomic step, and a motion is
 applied as its final frame, which `Easing.FrameAt` shows is the target.
 */
module Scheduler {
  import opened Types
  import opened Executor
  import Easing
  import LogBuffer
  import Text

  const WanderMargin: real := 100.0
  const WanderMinDuration: real := 2000.0
  const WanderSpread: real := 2000.0
  const Wandering: string := "Wandering..."
  const Thinking: string := "Thinking..."
  const Idle: string := "Idle"

  /**
   The execution state. `running` is the action between its `Tick` and its
   `Complete`; `canvas` is the whiteboard's accumulated path operations.
   */
  datatype State = State(
    autopilot: bool,
    executing: bool,
    queue: seq<CursorAction>,
    running: Option<CursorAction>,
    cursor: Position,
    clicking: bool,
    status: string,
    logs: seq<string>,
    windows: seq<WindowState>,
    canvas: seq<StrokeOp>)

  /**
   What holds between steps: the executing flag is up exactly while an action
   is running, the clicking flag is down, the log is within its capacity.
   */
  predicate Inv(s: State)
  {
    && (s.executing <==> s.running.Some?)
    && !s.clicking
    && |s.logs| <= LogBuffer.Capacity
  }

  /** The desktop at start-up, for a viewport of the given size. */
  function Init(vp: Viewport): (s: State)
    ensures Inv(s)
    ensures !s.autopilot && !s.executing && s.queue == [] && s.canvas == []
    ensures s.running == None && !s.clicking && s.status == Idle
    ensures s.cursor == Position(vp.width / 2.0, vp.height / 2.0)
    ensures s.logs == ["System ready.", "Waiting for instructions..."]
    ensures |s.windows| == 3 && forall w :: w in s.windows ==> w.isOpen
  {
    State(
      autopilot := false,
      executing := false,
      queue := [],
      running := None,
      cursor := Position(vp.width / 2.0, vp.height / 2.0),
      clicking := false,
      status := Idle,
      logs := ["System ready.", "Waiting for instructions..."],
      windows := [
        WindowState("notepad", "Notepad", 50.0, 50.0, 300.0, 200.0, 1, true),
        WindowState("whiteboard", "Whiteboard", 400.0, 100.0, 400.0, 400.0, 2, true),
        WindowState("files", "File Explorer", 100.0, 350.0, 250.0, 180.0, 3, true)],
      canvas := [])
  }

  // ---------------------------------------------------------------------------
  // Applying effects

  /** One effect on the state. A motion ends on its target; a pause changes nothing. */
  function Apply(s: State, e: Effect): State
  {
    match e
    case SetExecuting(on) => s.(executing := on)
    case SetStatus(text) => s.(status := text)
    case Motion(to, _) => s.(cursor := to)
    case SetClicking(on) => s.(clicking := on)
    case Log(message) => s.(logs := LogBuffer.AddLog(s.logs, message))
    case Pause(_) => s
    case Stroke(op) => s.(canvas := s.canvas + [op])
  }

  function ApplyAll(s: State, es: seq<Effect>): State
  {
    if es == [] then s else Apply(ApplyAll(s, es[..|es| - 1]), es[|es| - 1])
  }

  lemma {:induction false} ApplyAllAppend(s: State, xs: seq<Effect>, ys: seq<Effect>)
    ensures ApplyAll(s, xs + ys) == ApplyAll(ApplyAll(s, xs), ys)
  {
    if ys == [] {
      assert xs + ys == xs;
    } else {
      assert (xs + ys)[..|xs + ys| - 1] == xs + ys[..|ys| - 1];
      ApplyAllAppend(s, xs, ys[..|ys| - 1]);
    }
  }

  lemma {:induction false} AddLogsAppendOne(logs: seq<string>, msgs: seq<string>, m: string)
    ensures LogBuffer.AddLogs(logs, msgs + [m]) == LogBuffer.AddLog(LogBuffer.AddLogs(logs, msgs), m)
  {
    assert (msgs + [m])[..|msgs + [m]| - 1] == msgs;
  }

  lemma ApplyPair(s: State, e1: Effect, e2: Effect)
    ensures ApplyAll(s, [e1, e2]) == Apply(Apply(s, e1), e2)
  {
    assert [e1, e2][..1] == [e1];
    assert [e1][..0] == [];
    assert ApplyAll(s, [e1]) == Apply(ApplyAll(s, []), e1);
    assert ApplyAll(s, [e1, e2]) == Apply(ApplyAll(s, [e1]), e2);
  }

  lemma ApplyFrame(s: State, e: Effect)
    ensures Apply(s, e).queue == s.queue && Apply(s, e).running == s.running
    ensures Apply(s, e).autopilot == s.autopilot && Apply(s, e).windows == s.windows
  {
  }

  /** Effects never touch the queue, the running action, the autopilot flag or the windows. */
  lemma {:induction false} ApplyAllFrame(s: State, es: seq<Effect>)
    ensures ApplyAll(s, es).queue == s.queue
    ensures ApplyAll(s, es).running == s.running
    ensures ApplyAll(s, es).autopilot == s.autopilot
    ensures ApplyAll(s, es).windows == s.windows
  {
    if es != [] {
      ApplyAllFrame(s, es[..|es| - 1]);
      ApplyFrame(ApplyAll(s, es[..|es| - 1]), es[|es| - 1]);
    }
  }

  /** The canvas gains the strokes of the effects, in order, after what it held. */
  lemma {:induction false} ApplyAllCanvas(s: State, es: seq<Effect>)
    ensures ApplyAll(s, es).canvas == s.canvas + StrokesOf(es)
  {
    if es != [] {
      var front := es[..|es| - 1];
      var e := es[|es| - 1];
      assert es == front + [e];
      ApplyAllCanvas(s, front);
      StrokesAppend(front, [e]);
    }
  }

  lemma ApplyLogs(s: State, e: Effect)
    ensures Apply(s, e).logs == if e.Log? then LogBuffer.AddLog(s.logs, e.message) else s.logs
  {
  }

  /** The log receives the effects' messages in order. */
  lemma {:induction false} ApplyAllLogs(s: State, es: seq<Effect>)
    ensures ApplyAll(s, es).logs == LogBuffer.AddLogs(s.logs, LogsOf(es))
  {
    if es != [] {
      var front := es[..|es| - 1];
      var e := es[|es| - 1];
      assert es == front + [e];
      ApplyAllLogs(s, front);
      ApplyLogs(ApplyAll(s, front), e);
      LogsAppend(front, [e]);
      SingleViews(e);
      if e.Log? {
        AddLogsAppendOne(s.logs, LogsOf(front), e.message);
      } else {
        assert LogsOf(es) == LogsOf(front);
      }
    }
  }

  lemma ApplyCursor(s: State, e: Effect)
    ensures Apply(s, e).cursor == if e.Motion? then e.to else s.cursor
  {
  }

  /** The cursor ends on the last motion's target, or stays put when nothing moves it. */
  lemma {:induction false} ApplyAllCursor(s: State, es: seq<Effect>)
    ensures ApplyAll(s, es).cursor == CursorAfter(s.cursor, es)
  {
    if es != [] {
      var front := es[..|es| - 1];
      var e := es[|es| - 1];
      assert es == front + [e];
      ApplyAllCursor(s, front);
      ApplyCursor(ApplyAll(s, front), e);
      MotionsAppend(front, [e]);
      SingleViews(e);
      if !e.Motion? {
        assert MotionsOf(es) == MotionsOf(front);
      }
    }
  }

  lemma ApplyRunning(s: State, e: Effect, o: Option<CursorAction>)
    ensures Apply(s.(running := o), e) == Apply(s, e).(running := o)
  {
  }

  lemma {:induction false} ApplyAllRunning(s: State, es: seq<Effect>, o: Option<CursorAction>)
    ensures ApplyAll(s.(running := o), es) == ApplyAll(s, es).(running := o)
  {
    if es != [] {
      var front := es[..|es| - 1];
      ApplyAllRunning(s, front, o);
      ApplyRunning(ApplyAll(s, front), es[|es| - 1], o);
    }
  }

  lemma {:induction false} ApplyAllKeepsClicking(s: State, es: seq<Effect>)
    requires forall e :: e in es ==> !e.SetClicking?
    ensures ApplyAll(s, es).clicking == s.clicking
  {
    if es != [] {
      assert es[|es| - 1] in es;
      ApplyAllKeepsClicking(s, es[..|es| - 1]);
    }
  }

  lemma {:induction false} ApplyAllKeepsStatus(s: State, es: seq<Effect>)
    requires forall e :: e in es ==> !e.SetStatus?
    ensures ApplyAll(s, es).status == s.status
  {
    if es != [] {
      assert es[|es| - 1] in es;
      ApplyAllKeepsStatus(s, es[..|es| - 1]);
    }
  }

  lemma {:induction false} AddLogsBounded(logs: seq<string>, msgs: seq<string>)
    ensures |logs| <= LogBuffer.Capacity ==> |LogBuffer.AddLogs(logs, msgs)| <= LogBuffer.Capacity
  {
    if msgs != [] {
      AddLogsBounded(logs, msgs[..|msgs| - 1]);
    }
  }

  // ---------------------------------------------------------------------------
  // Main loop tick

  predicate TickEnabled(s: State)
  {
    s.autopilot && |s.queue| > 0 && !s.executing
  }

  /**
   The main loop's tick: when autopilot is on, the queue is non-empty and
   nothing executes, remove exactly the head and start executing it;
   otherwise change nothing.
   */
  function Tick(s: State): (r: State)
    ensures !TickEnabled(s) ==> r == s
    ensures TickEnabled(s) ==>
              && r.queue == s.queue[1..]
              && r.running == Some(s.queue[0])
              && r.executing
              && r.status == StatusText(s.queue[0])
              && r.(queue := s.queue, running := s.running, executing := s.executing, status := s.status) == s
  {
    if !TickEnabled(s) then s
    else
      var a := s.queue[0];
      ApplyPair(s.(queue := s.queue[1..], running := Some(a)), SetExecuting(true), SetStatus(StatusText(a)));
      ApplyAll(s.(queue := s.queue[1..], running := Some(a)), Entry(a))
  }

  // ---------------------------------------------------------------------------
  // Completing the running action

  /**
   Runs the rest of the running action and lowers the executing flag.
   `canvasMounted` says whether the whiteboard canvas exists; `rx`, `ry` are
   the jitter draws. The queue, windows and autopilot flag are untouched,
   strokes only accumulate, the clicking flag ends down and the log stays
   within capacity.
   */
  function Complete(s: State, canvasMounted: bool, rx: real, ry: real): (r: State)
    ensures s.running.None? ==> r == s
    ensures s.running.Some? ==> !r.executing && r.running.None?
    ensures r.queue == s.queue && r.autopilot == s.autopilot && r.windows == s.windows
    ensures s.canvas <= r.canvas
    ensures !s.clicking ==> !r.clicking
    ensures |s.logs| <= LogBuffer.Capacity ==> |r.logs| <= LogBuffer.Capacity
    ensures r.status == s.status
  {
    match s.running
    case None => s
    case Some(a) =>
      var rest := Body(a, s.windows, canvasMounted, rx, ry) + Exit;
      BodyKeepsStatus(a, s.windows, canvasMounted, rx, ry);
      assert forall e :: e in rest ==> !e.SetStatus?;
      ApplyAllKeepsStatus(s, rest);
      ApplyAllFrame(s, rest);
      ApplyAllEndsIdle(s, Body(a, s.windows, canvasMounted, rx, ry));
      ApplyAllCanvas(s, rest);
      ApplyAllLogs(s, rest);
      CompleteLowersClicking(s, a, canvasMounted, rx, ry);
      AddLogsBounded(s.logs, LogsOf(rest));
      ApplyAll(s, rest).(running := None)
  }

  lemma CompleteLowersClicking(s: State, a: CursorAction, canvasMounted: bool, rx: real, ry: real)
    ensures Moves(a) && a.kind == CLICK ==> !ApplyAll(s, Body(a, s.windows, canvasMounted, rx, ry) + Exit).clicking
    ensures !(Moves(a) && a.kind == CLICK) ==> ApplyAll(s, Body(a, s.windows, canvasMounted, rx, ry) + Exit).clicking == s.clicking
  {
    var body := Body(a, s.windows, canvasMounted, rx, ry);
    if Moves(a) && a.kind == CLICK {
      var front := [Motion(Destination(a, s.windows, rx, ry), MoveDuration), SetClicking(true), Log(ClickLog(a)), Pause(ClickDwell)];
      assert body + Exit == front + [SetClicking(false), SetExecuting(false)];
      ApplyAllAppend(s, front, [SetClicking(false), SetExecuting(false)]);
    } else {
      assert forall e :: e in body + Exit ==> !e.SetClicking?;
      ApplyAllKeepsClicking(s, body + Exit);
    }
  }

  /**
   Starting an action with `Tick` and finishing it with `Complete` does
   exactly what running its whole effect list on the dequeued state does.
   */
  lemma TickThenComplete(s: State, canvasMounted: bool, rx: real, ry: real)
    requires Inv(s) && TickEnabled(s)
    ensures Complete(Tick(s), canvasMounted, rx, ry)
            == ApplyAll(s.(queue := s.queue[1..]), Execute(s.queue[0], s.windows, canvasMounted, rx, ry))
  {
    var a := s.queue[0];
    var s0 := s.(queue := s.queue[1..]);
    var s1 := s.(queue := s.queue[1..], running := Some(a));
    var body := Body(a, s.windows, canvasMounted, rx, ry);
    assert s1 == s0.(running := Some(a));
    ApplyAllAppend(s1, Entry(a), body + Exit);
    assert Execute(a, s.windows, canvasMounted, rx, ry) == Entry(a) + (body + Exit);
    ApplyAllRunning(s0, Execute(a, s.windows, canvasMounted, rx, ry), Some(a));
    ApplyAllRunning(s0, Execute(a, s.windows, canvasMounted, rx, ry), None);
    assert s0.(running := None) == s0;
  }

  /** Completing a running action applies its body and the lowering of the flag, and clears `running`. */
  lemma CompleteApplies(s: State, canvasMounted: bool, rx: real, ry: real)
    requires s.running.Some?
    ensures Complete(s, canvasMounted, rx, ry)
            == ApplyAll(s, Body(s.running.value, s.windows, canvasMounted, rx, ry) + Exit).(running := None)
  {
  }

  /** Completing an action leaves the cursor on the action's last motion target, or where it was. */
  lemma CompleteCursor(s: State, canvasMounted: bool, rx: real, ry: real)
    requires s.running.Some?
    ensures Complete(s, canvasMounted, rx, ry).cursor
            == LastTarget(s.running.value, s.windows, canvasMounted, rx, ry).GetOr(s.cursor)
  {
    var a := s.running.value;
    var ws := s.windows;
    var rest := Body(a, ws, canvasMounted, rx, ry) + Exit;
    CompleteApplies(s, canvasMounted, rx, ry);
    ApplyAllCursor(s, rest);
    RestEndsAt(a, ws, canvasMounted, rx, ry, s.cursor);
  }

  /** Completing an action appends exactly its strokes to the whiteboard canvas. */
  lemma CompleteCanvas(s: State, canvasMounted: bool, rx: real, ry: real)
    requires s.running.Some?
    ensures Complete(s, canvasMounted, rx, ry).canvas
            == s.canvas + StrokesOf(Execute(s.running.value, s.windows, canvasMounted, rx, ry))
  {
    var a := s.running.value;
    var ws := s.windows;
    var rest := Body(a, ws, canvasMounted, rx, ry) + Exit;
    var all := Execute(a, ws, canvasMounted, rx, ry);
    assert Complete(s, canvasMounted, rx, ry).canvas == ApplyAll(s, rest).canvas by {
      CompleteApplies(s, canvasMounted, rx, ry);
    }
    assert StrokesOf(all) == StrokesOf(rest) by {
      assert all == Entry(a) + rest;
      StrokesAppend(Entry(a), rest);
      NoStrokes(Entry(a));
    }
    assert ApplyAll(s, rest).canvas == s.canvas + StrokesOf(rest) by {
      ApplyAllCanvas(s, rest);
    }
  }

  /** Completing an action logs exactly its messages, in order. */
  lemma CompleteLogs(s: State, canvasMounted: bool, rx: real, ry: real)
    requires s.running.Some?
    ensures Complete(s, canvasMounted, rx, ry).logs
            == LogBuffer.AddLogs(s.logs, LogsOf(Execute(s.running.value, s.windows, canvasMounted, rx, ry)))
  {
    var a := s.running.value;
    var ws := s.windows;
    var rest := Body(a, ws, canvasMounted, rx, ry) + Exit;
    var all := Execute(a, ws, canvasMounted, rx, ry);
    assert Complete(s, canvasMounted, rx, ry).logs == ApplyAll(s, rest).logs by {
      CompleteApplies(s, canvasMounted, rx, ry);
    }
    assert LogsOf(all) == LogsOf(rest) by {
      assert all == Entry(a) + rest;
      LogsAppend(Entry(a), rest);
      NoLogs(Entry(a));
    }
    assert ApplyAll(s, rest).logs == LogBuffer.AddLogs(s.logs, LogsOf(rest)) by {
      ApplyAllLogs(s, rest);
    }
  }

  lemma ApplyAllEndsIdle(s: State, body: seq<Effect>)
    ensures !ApplyAll(s, body + Exit).executing
  {
    assert (body + Exit)[..|body + Exit| - 1] == body;
  }

  // ---------------------------------------------------------------------------
  // Idle paths: wandering and refilling

  /** Both idle paths fire only when autopilot is on, the queue is empty and nothing executes. */
  predicate IdleGuard(s: State)
  {
    s.autopilot && s.queue == [] && !s.executing
  }

  /** The wander point for random draws `rx`, `ry`: the viewport inset by the margin. */
  function WanderTarget(vp: Viewport, rx: real, ry: real): Position
  {
    Position(Inset(WanderMargin, rx, vp.width), Inset(WanderMargin, ry, vp.height))
  }

  /** `margin + r * (size - margin * 2)`: a draw `r` spread over `size` less a margin on each side. */
  function Inset(margin: real, r: real, size: real): real
  {
    margin + Scale(r, size - margin * 2.0)
  }

  /** The product of a draw and a width, kept as one term so that bounds on it stay linear. */
  function Scale(r: real, w: real): real
  {
    r * w
  }

  function WanderDuration(rd: real): real
  {
    WanderMinDuration + rd * WanderSpread
  }

  function WanderEffects(vp: Viewport, rx: real, ry: real, rd: real): seq<Effect>
  {
    [SetStatus(Wandering), Motion(WanderTarget(vp, rx, ry), WanderDuration(rd))]
  }

  /**
   One wander tick: when idle, show the wandering status and glide to a
   random point; otherwise change nothing. It never touches the queue, the
   executing flag, the log or the canvas.
   */
  function Wander(s: State, vp: Viewport, rx: real, ry: real, rd: real): (r: State)
    ensures !IdleGuard(s) ==> r == s
    ensures IdleGuard(s) ==> r.status == Wandering && r.cursor == WanderTarget(vp, rx, ry)
    ensures r.(status := s.status, cursor := s.cursor) == s
    ensures IdleGuard(s) ==> r == ApplyAll(s, WanderEffects(vp, rx, ry, rd))
  {
    if IdleGuard(s) then
      ApplyPair(s, SetStatus(Wandering), Motion(WanderTarget(vp, rx, ry), WanderDuration(rd)));
      ApplyAll(s, WanderEffects(vp, rx, ry, rd))
    else s
  }

  /**
   For draws in [0, 1) and a viewport wider and taller than twice the margin,
   the wander point lies in `[100, W - 100) x [100, H - 100)` and the motion
   takes between 2000 (inclusive) and 4000 (exclusive) milliseconds.
   */
  lemma WanderInBounds(vp: Viewport, rx: real, ry: real, rd: real)
    requires 0.0 <= rx < 1.0 && 0.0 <= ry < 1.0 && 0.0 <= rd < 1.0
    requires vp.width > WanderMargin * 2.0 && vp.height > WanderMargin * 2.0
    ensures WanderMargin <= WanderTarget(vp, rx, ry).x < vp.width - WanderMargin
    ensures WanderMargin <= WanderTarget(vp, rx, ry).y < vp.height - WanderMargin
    ensures WanderMinDuration <= WanderDuration(rd) < WanderMinDuration + WanderSpread
  {
    InsetBelow(WanderMargin, rx, vp.width);
    InsetBelow(WanderMargin, ry, vp.height);
    ScaleBelow(rd, WanderSpread);
  }

  /**
   The wander point is spread over the whole inset box: every point of it,
   and every duration from 2 s to under 4 s, is reached by some draws.
   */
  lemma WanderCovers(vp: Viewport, p: Position, d: real)
    requires vp.width > WanderMargin * 2.0 && vp.height > WanderMargin * 2.0
    requires WanderMargin <= p.x < vp.width - WanderMargin && WanderMargin <= p.y < vp.height - WanderMargin
    requires WanderMinDuration <= d < WanderMinDuration + WanderSpread
    ensures var rx := (p.x - WanderMargin) / (vp.width - WanderMargin * 2.0);
            var ry := (p.y - WanderMargin) / (vp.height - WanderMargin * 2.0);
            var rd := (d - WanderMinDuration) / WanderSpread;
            && 0.0 <= rx < 1.0 && 0.0 <= ry < 1.0 && 0.0 <= rd < 1.0
            && WanderTarget(vp, rx, ry) == p && WanderDuration(rd) == d
  {
    InsetCovers(WanderMargin, p.x, vp.width);
    InsetCovers(WanderMargin, p.y, vp.height);
    InsetCovers(WanderMinDuration, d, WanderMinDuration * 2.0 + WanderSpread);
  }

  /** Each value of the inset range is the inset of one draw in [0, 1). */
  lemma InsetCovers(m: real, x: real, size: real)
    requires size > m * 2.0 && m <= x < size - m
    ensures var r := (x - m) / (size - m * 2.0); 0.0 <= r < 1.0 && Inset(m, r, size) == x
  {
    var w := size - m * 2.0;
    var r := (x - m) / w;
    QuotientInUnit(x - m, w);
    assert r * w == x - m;
  }

  /** A non-negative amount below `w` is a fraction of `w` in [0, 1). */
  lemma QuotientInUnit(a: real, w: real)
    requires 0.0 <= a < w
    ensures 0.0 <= a / w < 1.0
  {
    var q := a / w;
    assert q * w == a;
    assert (1.0 - q) * w == w - a;
    Easing.NonNegProduct(1.0 - q, w);
    Easing.NonNegProduct(q, w);
  }

  /** A wander tick makes one motion: to the wander point, over the drawn duration. */
  lemma WanderMotions(vp: Viewport, rx: real, ry: real, rd: real)
    ensures MotionsOf(WanderEffects(vp, rx, ry, rd)) == [Motion(WanderTarget(vp, rx, ry), WanderDuration(rd))]
    ensures StrokesOf(WanderEffects(vp, rx, ry, rd)) == [] && LogsOf(WanderEffects(vp, rx, ry, rd)) == []
  {
    var m := Motion(WanderTarget(vp, rx, ry), WanderDuration(rd));
    var es := WanderEffects(vp, rx, ry, rd);
    assert es == [SetStatus(Wandering)] + [m];
    SingleViews(SetStatus(Wandering));
    SingleViews(m);
    MotionsAppend([SetStatus(Wandering)], [m]);
    StrokesAppend([SetStatus(Wandering)], [m]);
    LogsAppend([SetStatus(Wandering)], [m]);
  }

  lemma InsetBelow(m: real, r: real, size: real)
    requires 0.0 <= r < 1.0 && size > m * 2.0
    ensures m <= Inset(m, r, size) < size - m
  {
    ScaleBelow(r, size - m * 2.0);
  }

  /** A draw in [0, 1) times a positive width stays in [0, width). */
  lemma ScaleBelow(r: real, w: real)
    requires 0.0 <= r < 1.0 && w > 0.0
    ensures 0.0 <= Scale(r, w) < w
  {
    assert r * w < 1.0 * w;
  }

  /** The titles of the open windows, in window order: what the planner is told. */
  function OpenTitles(ws: seq<WindowState>): (r: seq<string>)
    ensures |r| <= |ws|
  {
    if ws == [] then [] else TitleIfOpen(ws[0]) + OpenTitles(ws[1..])
  }

  function TitleIfOpen(w: WindowState): seq<string>
  {
    if w.isOpen then [w.title] else []
  }

  /** One window contributes its title exactly when it is open. */
  lemma OpenTitlesOne(w: WindowState)
    ensures OpenTitles([w]) == if w.isOpen then [w.title] else []
  {
    assert [w][1..] == [];
  }

  /** The planner's list follows window order: titles of a concatenation concatenate. */
  lemma {:induction false} OpenTitlesAppend(xs: seq<WindowState>, ys: seq<WindowState>)
    ensures OpenTitles(xs + ys) == OpenTitles(xs) + OpenTitles(ys)
  {
    if xs == [] {
      assert xs + ys == ys;
    } else {
      assert (xs + ys)[1..] == xs[1..] + ys;
      OpenTitlesAppend(xs[1..], ys);
    }
  }

  /** A title reaches the planner exactly when some open window carries it. */
  lemma {:induction false} OpenTitlesMembers(ws: seq<WindowState>, t: string)
    ensures t in OpenTitles(ws) <==> exists j :: 0 <= j < |ws| && ws[j].isOpen && ws[j].title == t
  {
    if ws != [] {
      OpenTitlesMembers(ws[1..], t);
      if t in OpenTitles(ws[1..]) {
        var j :| 0 <= j < |ws[1..]| && ws[1..][j].isOpen && ws[1..][j].title == t;
        assert ws[j + 1] == ws[1..][j];
      }
      if exists j :: 0 <= j < |ws| && ws[j].isOpen && ws[j].title == t {
        var j :| 0 <= j < |ws| && ws[j].isOpen && ws[j].title == t;
        if j > 0 {
          assert ws[1..][j - 1] == ws[j];
        }
      }
    }
  }

  /** What the planner is asked: the open windows' titles and the viewport size. */
  datatype PlanRequest = PlanRequest(titles: seq<string>, viewport: Viewport)

  const PlanLogPrefix: string := "Plan updated: "
  const PlanLogSuffix: string := " instructions."

  function PlanLog(n: nat): string
  {
    PlanLogPrefix + Text.NatToString(n) + PlanLogSuffix
  }

  /** The plan log tells the number of instructions received: distinct counts log differently. */
  lemma PlanLogInjective(m: nat, n: nat)
    requires PlanLog(m) == PlanLog(n)
    ensures m == n
  {
    var a := Text.NatToString(m);
    var b := Text.NatToString(n);
    var p := |PlanLogPrefix|;
    var q := |PlanLogSuffix|;
    assert |a| == |b|;
    assert a == PlanLog(m)[p..p + |a|];
    assert b == PlanLog(n)[p..p + |b|];
    Text.NatToStringInjective(m, n);
  }

  /**
   Installs a new plan when idle: show the thinking status, ask the planner
   about the open windows and the viewport, replace the queue wholesale with
   its answer (even an empty one) and log how many instructions arrived.
   Otherwise change nothing.
   */
  function Refill(s: State, vp: Viewport, planner: PlanRequest -> seq<CursorAction>): (r: State)
    ensures !IdleGuard(s) ==> r == s
    ensures IdleGuard(s) ==>
              && r.queue == planner(PlanRequest(OpenTitles(s.windows), vp))
              && r.status == Thinking
              && r.logs == LogBuffer.AddLog(s.logs, PlanLog(|r.queue|))
              && r.(queue := s.queue, status := s.status, logs := s.logs) == s
  {
    if !IdleGuard(s) then s
    else
      var plan := planner(PlanRequest(OpenTitles(s.windows), vp));
      s.(status := Thinking, queue := plan, logs := LogBuffer.AddLog(s.logs, PlanLog(|plan|)))
  }

  /** The dock's toggle. Switching autopilot off neither aborts the running action nor clears the queue. */
  function SetAutopilot(s: State, on: bool): (r: State)
    ensures r.autopilot == on
    ensures r.(autopilot := s.autopilot) == s
  {
    s.(autopilot := on)
  }

  // ---------------------------------------------------------------------------
  // Runs

  /** One step of the environment, with the random draws and inputs it needs. */
  datatype Step =
    | TickStep
    | CompleteStep(canvasMounted: bool, rx: real, ry: real)
    | WanderStep(viewport: Viewport, wx: real, wy: real, wd: real)
    | RefillStep(viewport: Viewport, planner: PlanRequest -> seq<CursorAction>)
    | AutopilotStep(on: bool)

  function Next(s: State, st: Step): State
  {
    match st
    case TickStep => Tick(s)
    case CompleteStep(c, rx, ry) => Complete(s, c, rx, ry)
    case WanderStep(vp, wx, wy, wd) => Wander(s, vp, wx, wy, wd)
    case RefillStep(vp, planner) => Refill(s, vp, planner)
    case AutopilotStep(on) => SetAutopilot(s, on)
  }

  function Run(s: State, steps: seq<Step>): State
    decreases steps
  {
    if steps == [] then s else Run(Next(s, steps[0]), steps[1..])
  }

  /** Every step keeps the state invariant. */
  lemma NextKeepsInv(s: State, st: Step)
    requires Inv(s)
    ensures Inv(Next(s, st))
  {
    match st
    case TickStep =>
    case CompleteStep(c, rx, ry) =>
    case WanderStep(vp, wx, wy, wd) =>
    case RefillStep(vp, planner) =>
    case AutopilotStep(on) =>
  }

  lemma {:induction false} RunKeepsInv(s: State, steps: seq<Step>)
    requires Inv(s)
    ensures Inv(Run(s, steps))
    decreases steps
  {
    if steps != [] {
      NextKeepsInv(s, steps[0]);
      RunKeepsInv(Next(s, steps[0]), steps[1..]);
    }
  }

  /**
   Mutual exclusion: only `Tick` starts an action, and only when none is
   running; only `Complete` ends one. While an action runs, no other step
   changes which action runs, the queue, or the cursor.
   */
  lemma OneActionAtATime(s: State, st: Step)
    requires Inv(s)
    ensures Next(s, st).running.Some? && Next(s, st).running != s.running
            ==> st.TickStep? && s.running.None?
    ensures s.running.Some? && Next(s, st).running.None? ==> st.CompleteStep?
    ensures s.executing && !st.CompleteStep?
            ==> Next(s, st).running == s.running && Next(s, st).queue == s.queue && Next(s, st).cursor == s.cursor
  {
  }

  /** The actions a step dequeues: the head on an enabled tick, nothing otherwise. */
  function Dequeued(s: State, st: Step): seq<CursorAction>
  {
    if st.TickStep? && TickEnabled(s) then [s.queue[0]] else []
  }

  /** The plan a step installs: the planner's answer on an enabled refill, nothing otherwise. */
  function Installed(s: State, st: Step): seq<CursorAction>
  {
    if st.RefillStep? && IdleGuard(s) then st.planner(PlanRequest(OpenTitles(s.windows), st.viewport)) else []
  }

  function Started(s: State, steps: seq<Step>): seq<CursorAction>
    decreases steps
  {
    if steps == [] then [] else Dequeued(s, steps[0]) + Started(Next(s, steps[0]), steps[1..])
  }

  function Supplied(s: State, steps: seq<Step>): seq<CursorAction>
    decreases steps
  {
    if steps == [] then [] else Installed(s, steps[0]) + Supplied(Next(s, steps[0]), steps[1..])
  }

  lemma NextConservesQueue(s: State, st: Step)
    ensures Dequeued(s, st) + Next(s, st).queue == s.queue + Installed(s, st)
  {
    if st.TickStep? && TickEnabled(s) {
      assert [s.queue[0]] + s.queue[1..] == s.queue;
    }
  }

  /**
   First in, first out, nothing lost and nothing repeated: over any run, the
   actions started, followed by what is still queued, are exactly the
   initial queue followed by every plan the planner supplied, in order.
   */
  lemma {:induction false} RunConservesQueue(s: State, steps: seq<Step>)
    ensures Started(s, steps) + Run(s, steps).queue == s.queue + Supplied(s, steps)
    decreases steps
  {
    if steps != [] {
      var t := Next(s, steps[0]);
      var rest := steps[1..];
      RunConservesQueue(t, rest);
      NextConservesQueue(s, steps[0]);
      Splice(Dequeued(s, steps[0]), Started(t, rest), Run(t, rest).queue,
             t.queue, Supplied(t, rest), s.queue, Installed(s, steps[0]));
    } else {
      assert s.queue + [] == s.queue;
    }
  }

  /** Chaining one step's queue accounting with the rest of the run's. */
  lemma Splice<T>(d: seq<T>, st: seq<T>, q: seq<T>, tq: seq<T>, su: seq<T>, sq: seq<T>, i: seq<T>)
    requires st + q == tq + su
    requires d + tq == sq + i
    ensures (d + st) + q == sq + (i + su)
  {
    calc {
      (d + st) + q;
      d + (tq + su);
      (d + tq) + su;
      (sq + i) + su;
    }
  }

  /** Strokes on the whiteboard are never cleared: the canvas only grows over any run. */
  lemma {:induction false} RunOnlyAddsStrokes(s: State, steps: seq<Step>)
    ensures s.canvas <= Run(s, steps).canvas
    decreases steps
  {
    if steps != [] {
      RunOnlyAddsStrokes(Next(s, steps[0]), steps[1..]);
    }
  }
}

=== FILE: text.dfy ===
/**
 Decimal rendering of a count, as a template literal prints a non-negative
 integer (`${newActions.length}` in the plan log), with the parser that
 inverts it.
 */
module Text {

  predicate IsDigit(c: char)
  {
    '0' <= c <= '9'
  }

  function DigitChar(d: nat): (c: char)
    requires d < 10
    ensures IsDigit(c)
  {
    "0123456789"[d]
  }

  function DigitValue(c: char): (d: nat)
    requires IsDigit(c)
    ensures d < 10
  {
    (c as int - '0' as int) as nat
  }

  /** The shortest decimal numeral for `n`, without sign or leading zeros. */
  function NatToString(n: nat): (s: string)
    ensures 0 < |s|
    ensures forall i :: 0 <= i < |s| ==> IsDigit(s[i])
    ensures |s| > 1 ==> s[0] != '0'
  {
    if n < 10 then [DigitChar(n)] else NatToString(n / 10) + [DigitChar(n % 10)]
  }

  /** The value of a numeral, most significant digit first. */
  function ParseNat(s: string): nat
    requires forall i :: 0 <= i < |s| ==> IsDigit(s[i])
  {
    if s == [] then 0 else ParseNat(s[..|s| - 1]) * 10 + DigitValue(s[|s| - 1])
  }

  lemma DigitRoundTrip(d: nat)
    requires d < 10
    ensures DigitValue(DigitChar(d)) == d
  {
  }

  /** Reading back the numeral of `n` gives `n`: the rendering loses nothing. */
  lemma {:induction false} NatToStringRoundTrip(n: nat)
    ensures ParseNat(NatToString(n)) == n
  {
    if n < 10 {
      DigitRoundTrip(n);
      assert NatToString(n)[..0] == [];
    } else {
      var front := NatToString(n / 10);
      var s := front + [DigitChar(n % 10)];
      assert s[..|s| - 1] == front;
      NatToStringRoundTrip(n / 10);
      DigitRoundTrip(n % 10);
    }
  }

  /** Distinct counts are logged as distinct numerals. */
  lemma NatToStringInjective(m: nat, n: nat)
    requires NatToString(m) == NatToString(n)
    ensures m == n
  {
    NatToStringRoundTrip(m);
    NatToStringRoundTrip(n);
  }
}

=== FILE: types.dfy ===
/**
 The records the cursor-automation core works on: screen positions, the
 planner's actions and the desktop's windows. Numbers are JavaScript numbers
 in the original; here they are `real` (coordinates, sizes) or `int`
 (stacking order).
 */
module Types {

  /** An optional field of a record (`field?: T` in the original). */
  datatype Option<T> = None | Some(value: T) {

    /** The carried value, or `default` when absent (the `a || b` idiom on objects). */
    function GetOr(default: T): (r: T)
      ensures Some? ==> r == value
      ensures None? ==> r == default
    {
      match this
      case Some(v) => v
      case None => default
    }
  }

  /** A point in screen coordinates. */
  datatype Position = Position(x: real, y: real)

  /** The action tags; `IDLE` is declared but never produced by the planner. */
  datatype ActionType = MOVE | CLICK | DRAW | IDLE

  /** The string value of each tag, as shown in the status line. */
  function TypeName(t: ActionType): string
  {
    match t
    case MOVE => "MOVE"
    case CLICK => "CLICK"
    case DRAW => "DRAW"
    case IDLE => "IDLE"
  }

  /**
   One planner instruction. `target` names a window by id or title,
   `position` is an absolute point, `path` a list of points normalised to the
   whiteboard's drawable area, `caption` is the advisory `label` text.
   */
  datatype CursorAction = CursorAction(
    kind: ActionType,
    target: Option<string>,
    position: Option<Position>,
    path: Option<seq<Position>>,
    caption: Option<string>)

  /** A desktop window as the presentation layer reports it. */
  datatype WindowState = WindowState(
    id: string,
    title: string,
    x: real,
    y: real,
    width: real,
    height: real,
    zIndex: int,
    isOpen: bool)

  /** The viewport size (`window.innerWidth`, `window.innerHeight`). */
  datatype Viewport = Viewport(width: real, height: real)

  /**
   JavaScript truthiness of an optional string: an absent string and the
   empty string are both false.
   */
  predicate Truthy(s: Option<string>)
  {
    s.Some? && s.value != ""
  }
}
